=== FILE: README.md ===
# Android screen controller — a Dafny model

This project models the core of a browser client that mirrors and controls
an Android device. The client talks to the device over WebUSB and ADB, and
runs the scrcpy server on the device. The model covers four parts:

- **Input translation.** Pointer, wheel and keyboard events become scrcpy
  control messages:
  - the letterboxed video rectangle and the clamp-and-scale coordinate map;
  - the key table, the browser-shortcut denylist and the modifier mask;
  - the listener registry of the input manager.
- **Audio.** The hook negotiates whether to play, drain or ignore the audio
  stream. The player configures a WebCodecs decoder, feeds it packets and
  schedules decoded buffers back to back on the audio clock.
- **Video.** The decoder ladder: WebGL, then bitmap, then TinyH264 software
  decoding. The video hook owns the decoder, its canvas, the pipe's abort
  controller and the video size.
- **Connection and session.** The state machine over `ConnectionState`:
  - the device manager and the scrcpy session manager;
  - the two hooks that drive them, each recording every state it sets in a
    trace;
  - the application's effects, its disconnect and retry handlers, and its
    page predicates.

### How the environment is modelled

- Browser and library calls are **oracle parameters**: the device picker,
  USB connection, ADB authentication, the device shell, the server push and
  launch, codec support probes, and whether a constructor throws. A caller
  chooses each outcome.
- Objects the source creates get identities from a `nextId` counter.
  Ghost sets record which contexts, decoders, pipes and controllers are
  still open, so that leaks can be stated.
- An `async` function is split at an await only where another call can
  land in between and change the result. This is done for:
  - `startAudio` and `startSession`, which are guarded by an in-progress
    flag;
  - `startDecoding`, which has no guard.
- Scenario methods state what such interleavings do:
  - `VideoHook.StopDuringStart` and `VideoHook.OverlappingStarts`;
  - `ScrcpySessionHook.StopDuringSessionStart`.

### A failed session start

A failed session start releases nothing. `startSession` stores the new
session before pushing the server, and its `catch` only reports the error,
so the session and the transport stay open until `stopSession` or a
disconnect. `ScrcpySessionHook.ScrcpySession.CompleteStartSession` models
this.

## Model

| member | source | states |
|---|---|---|
| Types.ExactlyEightStates | src/types/index.ts:1-10 | there are exactly eight connection states, each listed once |
| Types.TagsDistinct | src/types/index.ts:1-10 | two states have the same tag only if they are the same state |
| Geometry.RenderedVideoRect | src/lib/input/touch-handler.ts:21-56 | with a zero video dimension the rectangle is the whole container; otherwise it has positive size |
| Geometry.RenderedRectFits | src/lib/input/touch-handler.ts:38-46 | the rendered rectangle lies inside the container and fills it along one axis (object-fit: contain, CSS Images Level 3 section 5.5) |
| Geometry.RenderedRectKeepsAspect | src/lib/input/touch-handler.ts:38-46 | the rendered width/height equals the video's width/height |
| Geometry.RenderedRectCentred | src/lib/input/touch-handler.ts:48-55 | the margins on opposite sides are equal (the default object-position, CSS Images Level 3 section 5.6) |
| Geometry.PortraitInLandscapeExample | src/lib/input/touch-handler.ts:21-56 | a 1080x2400 video in an 800x450 container is pillarboxed to 202.5x450, starting at x = 298.75 |
| Geometry.MapClientToVideo | src/lib/utils/coordinate-utils.ts:1-14 | every client point maps into [0, videoWidth] x [0, videoHeight] |
| Geometry.MapClampsAtEdges | src/lib/utils/coordinate-utils.ts:8-9 | at or before the rectangle's origin an axis maps to 0; at or beyond its far edge it maps to the full video size |
| Geometry.MapLinearInside | src/lib/utils/coordinate-utils.ts:8-12 | inside the rectangle the map is (client − origin) / size · video size |
| Geometry.MapMonotone | src/lib/utils/coordinate-utils.ts:8-9 | the map is non-decreasing in each coordinate |
| Geometry.CentreMapsToHalf | src/lib/utils/coordinate-utils.ts:8-13 | the rectangle's centre maps to the video's centre |
| TouchHandler.ButtonMapShape | src/lib/input/touch-handler.ts:7-13 | browser buttons 0 to 4 select five different buttons; any other number falls back to the primary button |
| TouchHandler.HandlePointerEvent | src/lib/input/touch-handler.ts:63-117 | every event is consumed and its pointer captured; exactly the four pointer event types send one touch message, whose action follows the type (a move without buttons hovers), whose position is `MapClientToVideo` on the rendered rectangle, with pressure 1 iff a button is held and the button from the button map |
| ScrollHandler.HandleWheelEvent | src/lib/input/scroll-handler.ts:8-34 | every wheel event is default-prevented and sends exactly one scroll message; scrollX and buttons are 0; scrollY is −sign(deltaY); the position is `MapClientToVideo` on the rendered rectangle |
| KeyboardHandler.KeyMapSize | src/lib/input/keyboard-handler.ts:12-104 | the key table has 91 entries |
| KeyboardHandler.BrowserShortcutsSize | src/lib/input/keyboard-handler.ts:107-120 | the denylist has 12 codes, all of them in the key table |
| KeyboardHandler.GetMetaState | src/lib/input/keyboard-handler.ts:122-129 | each modifier bit is set exactly when that modifier is held; the mask is empty when none is held |
| KeyboardHandler.HandleKeyEvent | src/lib/input/keyboard-handler.ts:132-161 | only ctrl or meta with a denylisted code is ignored; a mapped code prevents the default and sends one key message (its code from the table, Down iff keydown, repeat 1 iff repeating, the modifier mask); an unmapped keydown whose key is one UTF-16 code unit (one character of the Basic Multilingual Plane) sends that text; anything else sends nothing |
| KeyboardHandler.Utf16LengthOne | src/lib/input/keyboard-handler.ts:141 | `key.length === 1` holds exactly for a single character of the Basic Multilingual Plane |
| KeyboardHandler.AstralKeyIsTwoUnits | src/lib/input/keyboard-handler.ts:141 | a key that is one emoji has `length` 2, so it is not injected as text |
| InputManagement.RegistrationsAddUp | src/lib/input/input-manager.ts:36-47 | the eight registrations of an attach add exactly the expected listener set |
| InputManagement.ExpectedAllOwned | src/lib/input/input-manager.ts:36-47 | every listener an attach registers is one of the manager's own handlers |
| InputManagement.OwnedUnion | src/lib/input/input-manager.ts:22-53 | adding only owned listeners to a registry without owned ones leaves exactly those owned |
| InputManagement.ExpectedSize | src/lib/input/input-manager.ts:36-47 | an attach registers eight distinct listeners |
| InputManagement.ExpectedShape | src/lib/input/input-manager.ts:36-47 | they are pointerdown/move/up/cancel, wheel and contextmenu on the element, and keydown/keyup on the document |
| InputManagement.Dom.constructor | src/lib/input/input-manager.ts:22-53 | the DOM starts with the listeners given, no tab indices and no focus |
| InputManagement.Dom.AddEventListener | src/lib/input/input-manager.ts:36-47 | the registry gains exactly the listener |
| InputManagement.Dom.RemoveEventListener | src/lib/input/input-manager.ts:59-70 | the registry loses exactly the listener |
| InputManagement.Dom.MakeFocusable | src/lib/input/input-manager.ts:50-52 | the element's tab index becomes 0 and it is focused |
| InputManagement.InputManager.constructor | src/lib/input/input-manager.ts:6-20 | a new manager holds no element and no handlers, consistently with a registry holding none of its listeners |
| InputManagement.InputManager.Detach | src/lib/input/input-manager.ts:55-77 | all of the manager's registrations are removed, other listeners are untouched, and the element and handlers are cleared; with nothing attached nothing changes |
| InputManagement.InputManager.Attach | src/lib/input/input-manager.ts:22-53 | it detaches first; afterwards the manager's registrations are exactly the expected eight for the element, under a fresh generation of handlers; other listeners are untouched; the element is focusable and focused |
| InputManagement.InputManager.PreventContextMenu | src/lib/input/input-manager.ts:79-81 | the handler only prevents the default |
| InputManagement.AttachTwice | src/lib/input/input-manager.ts:22-77 | attaching twice leaves exactly eight owned listeners, wired as after one attach, with none from the first attach left |
| AudioPlayback.StartFor | src/lib/audio/audio-player.ts:210-219 | a buffer never starts before the clock; it starts at the cursor when the cursor is not behind, and otherwise at clock + 0.01 |
| AudioPlayback.ScheduleOrdered | src/lib/audio/audio-player.ts:211-220 | in a schedule built since the last stop, each buffer ends no later than the next one starts, and starts strictly increase |
| AudioPlayback.AudioPlayer.constructor | src/lib/audio/audio-player.ts:1-33 | a new player holds nothing, is not playing and has cursor 0 |
| AudioPlayback.AudioPlayer.Stop | src/lib/audio/audio-player.ts:226-247 | the pipe is aborted and the decoder and context are closed and dropped; the cursor is 0; nothing stays open |
| AudioPlayback.AudioPlayer.Start | src/lib/audio/audio-player.ts:34-154 | it stops first; one new context (running, or suspended when the resume fails) and one new decoder are the only open ones; the cursor is 0; the decoder is configured for the codec at 48 kHz stereo without a description; a throwing configure leaves it unconfigured with no pipe and not playing |
| AudioPlayback.AudioPlayer.Open | src/lib/audio/audio-player.ts:42-154 | from a stopped player: one new context in the given state and one new decoder, with fresh identities, are the only open ones; the cursor is 0; configure succeeds exactly when it does not throw, and only then is there a pipe and playback |
| AudioPlayback.AudioPlayer.WritePacket | src/lib/audio/audio-player.ts:95-143 | packets are ignored without a live decoder; configuration packets are ignored for Opus and otherwise reconfigure with the packet's data as description, swallowing errors; a data packet is a key frame iff the codec is Opus or its flag is not false, with timestamp pts or 0 |
| AudioPlayback.AudioPlayer.DecoderErrored | src/lib/audio/audio-player.ts:66-68 | a decoder error only closes the decoder |
| AudioPlayback.AudioPlayer.PipeEnded | src/lib/audio/audio-player.ts:147-153 | whichever way the pipe ends, playing becomes false and nothing else changes |
| AudioPlayback.AudioPlayer.HandleDecodedAudio | src/lib/audio/audio-player.ts:160-221 | a closed context, zero frames, or a channel that fails to copy in both formats drops the frame and leaves the cursor alone; otherwise the buffer starts at `StartFor(cursor, clock)` and the cursor moves to its end, keeping the schedule gapless |
| AudioPlayback.GaplessExtend | src/lib/audio/audio-player.ts:212-220 | a buffer placed where the cursor says (at the cursor, or just after the clock when the cursor is behind) keeps the schedule gapless, with the cursor moved to that buffer's end |
| AudioHook.Negotiate | src/hooks/useAudioPlayer.ts:20-83 | no stream, disabled or errored gives no audio; a missing codec, no `AudioDecoder` or an unsupported config drains; otherwise it plays that codec |
| AudioHook.ThrowingProbeStillPlays | src/hooks/useAudioPlayer.ts:77-84 | a throwing support probe plays exactly as a supported one |
| AudioHook.AudioPlayerHook.constructor | src/hooks/useAudioPlayer.ts:1-11 | no player and no start pending |
| AudioHook.AudioPlayerHook.BeginStartAudio | src/hooks/useAudioPlayer.ts:10-27 | a second call while one is pending has no effect; otherwise the current player is stopped (pipe aborted, not playing, decoder and context closed, nothing left open) and dropped, and without a stream the start ends there |
| AudioHook.AudioPlayerHook.FinishStartAudio | src/hooks/useAudioPlayer.ts:27-89 | the outcome is `Negotiate`; a drain creates no player; playing creates and starts a fresh player, kept even if its start throws; the pending flag is cleared on every path |
| AudioHook.AudioPlayerHook.StopAudio | src/hooks/useAudioPlayer.ts:92-95 | stops and drops the player; with none it does nothing |
| VideoDecoderSelection.CreateDecoder | src/lib/video/decoder.ts:17-61 | the WebGL rung iff WebCodecs and WebGL are supported and it builds; the bitmap rung iff WebCodecs is supported, WebGL was skipped or threw, and bitmap builds; otherwise TinyH264; hardware iff a WebCodecs rung; both hardware rungs use H.264 on their renderer's canvas |
| VideoDecoderSelection.NoWebCodecsMeansSoftware | src/lib/video/decoder.ts:19-55 | without WebCodecs the software rung is chosen, whatever WebGL reports |
| VideoDecoderSelection.HardwareWhenARungBuilds | src/lib/video/decoder.ts:27-59 | hardware decoding iff WebCodecs is supported and some hardware rung builds |
| VideoHook.Remove | src/hooks/useVideoDecoder.ts:31-33 | removing the canvas keeps exactly the other children |
| VideoHook.VideoDecoderHook.constructor | src/hooks/useVideoDecoder.ts:1-23 | no decoder, canvas or controller; size 0 |
| VideoHook.VideoDecoderHook.StopDecoding | src/hooks/useVideoDecoder.ts:24-37 | afterwards there is no decoder, canvas or controller, the container is empty and the size is 0; the held controller is aborted; it can be repeated, or called before any start |
| VideoHook.VideoDecoderHook.BeginStartDecoding | src/hooks/useVideoDecoder.ts:39-69 | it stops first; without a video stream it stays stopped; otherwise it holds one new decoder from `CreateDecoder`, shows only its canvas and listens for its size |
| VideoHook.VideoDecoderHook.ResumeStartDecoding | src/hooks/useVideoDecoder.ts:70-76 | the size becomes the stream's and a new abort controller is held, whether or not this start is still current |
| VideoHook.VideoDecoderHook.SizeChanged | src/hooks/useVideoDecoder.ts:64-67 | a registered decoder's size event overwrites the size |
| VideoHook.VideoDecoderHook.PipeEnded | src/hooks/useVideoDecoder.ts:77-85 | an abort is not reported, any other failure is; the size listener is removed in every case |
| VideoHook.StopDuringStart | src/hooks/useVideoDecoder.ts:24-88 | a stop while a start awaits its stream leaves no decoder, yet a set size and an open abort controller |
| VideoHook.OverlappingStarts | src/hooks/useVideoDecoder.ts:39-88 | two overlapping starts keep one decoder alive but two controllers open |
| AdbDevice.LeadingWhitespace | src/lib/adb/device-manager.ts:57-72 | counts exactly the whitespace prefix |
| AdbDevice.TrailingWhitespace | src/lib/adb/device-manager.ts:57-72 | counts exactly the whitespace suffix |
| AdbDevice.Trim | src/lib/adb/device-manager.ts:57-72 | the result is a slice of the input with only whitespace cut off, and neither starts nor ends with whitespace |
| AdbDevice.TrimIdempotent | src/lib/adb/device-manager.ts:57-72 | trimming twice is trimming once |
| AdbDevice.TrimEdges | src/lib/adb/device-manager.ts:57-72 | a string without edge whitespace is unchanged; an all-whitespace string trims to empty |
| AdbDevice.QueryDeviceInfo | src/lib/adb/device-manager.ts:62-71 | any failing query fails the whole read, reporting the first in model, version, serial order; otherwise the record holds the three trimmed outputs and no screen size |
| AdbDevice.DeviceManager.constructor | src/lib/adb/device-manager.ts:10-17 | support is fixed at construction; no device, transport or client |
| AdbDevice.DeviceManager.Disconnected | src/lib/adb/device-manager.ts:53-55 | while there is a client, the closed signal is that of the client's own transport |
| AdbDevice.DeviceManager.RequestDevice | src/lib/adb/device-manager.ts:31-35 | without WebUSB it throws "WebUSB not supported"; otherwise the picked device, possibly none, replaces the stored one; a picker error changes nothing |
| AdbDevice.DeviceManager.Connect | src/lib/adb/device-manager.ts:37-51 | without a device it throws "No device selected"; a connection or authentication failure is rethrown and changes nothing; success sets the transport for the device's serial and a client over it, and connected holds |
| AdbDevice.DeviceManager.GetDeviceInfo | src/lib/adb/device-manager.ts:57-72 | without a client it throws "Not connected"; otherwise its result is `QueryDeviceInfo` |
| AdbDevice.DeviceManager.Disconnect | src/lib/adb/device-manager.ts:74-83 | close errors are swallowed; the client, transport and device are always cleared, so it is idempotent |
| ScrcpyClient.Join | src/lib/scrcpy/client.ts:47 | joining one line is that line; joining none is empty |
| ScrcpyClient.Lines | src/lib/scrcpy/client.ts:47 | splitting gives at least one piece, none holding a line feed |
| ScrcpyClient.LinesOfOneLine | src/lib/scrcpy/client.ts:47 | a line without a line feed splits to itself |
| ScrcpyClient.LinesAfterLine | src/lib/scrcpy/client.ts:47 | splitting l + "\n" + t gives l followed by the pieces of t |
| ScrcpyClient.SplitJoin | src/lib/scrcpy/client.ts:47 | splitting what was joined with "\n" gives the lines back |
| ScrcpyClient.ExitMessage | src/lib/scrcpy/client.ts:44-48 | the message starts with "Scrcpy server failed:\n" |
| ScrcpyClient.ExitMessageKeepsOutput | src/lib/scrcpy/client.ts:44-48 | after that prefix, the message splits back into the server's output lines |
| ScrcpyClient.ScrcpySessionManager.constructor | src/lib/scrcpy/client.ts:14-16 | bound to one ADB client; no scrcpy client before start |
| ScrcpyClient.ScrcpySessionManager.PushServer | src/lib/scrcpy/client.ts:22-33 | a failed binary fetch is thrown before anything is pushed; otherwise the push's outcome is returned |
| ScrcpyClient.ScrcpySessionManager.Start | src/lib/scrcpy/client.ts:35-64 | an early server exit becomes an error carrying the output; other errors pass through; failures leave the client unassigned; success holds and returns a client with the given config (the default when absent), whose output is drained |
| ScrcpyClient.ScrcpySessionManager.Stop | src/lib/scrcpy/client.ts:66-73 | close errors are swallowed and the client is always cleared |
| DeviceConnectionHook.DeviceConnection.constructor | src/hooks/useDeviceConnection.ts:6-11 | starts disconnected, with no client, record or error |
| DeviceConnectionHook.DeviceConnection.SetConnectionState | src/hooks/useDeviceConnection.ts:7 | sets the state and appends it to the trace |
| DeviceConnectionHook.DeviceConnection.SetError | src/hooks/useDeviceConnection.ts:10 | sets the error text only |
| DeviceConnectionHook.DeviceConnection.SetAdb | src/hooks/useDeviceConnection.ts:66-82 | a changed client re-runs the watcher, which awaits the manager's current transport; an unchanged one leaves the watcher alone |
| DeviceConnectionHook.DeviceConnection.Fail | src/hooks/useDeviceConnection.ts:50-55 | a caught error sets its message (or "Connection failed"), emits Error and clears the client |
| DeviceConnectionHook.DeviceConnection.Authenticate | src/hooks/useDeviceConnection.ts:32-49 | Authenticating, then Error on a failure, or Connected with the new client, the watcher on its transport and the device record (the unknown one if a query fails) |
| DeviceConnectionHook.DeviceConnection.Connect | src/hooks/useDeviceConnection.ts:13-56 | unsupported: [Error] with "WebUSB is not supported in this browser."; picker error: [Connecting, Error]; cancelled: [Connecting, Disconnected] with no error; connection or authentication error: [Connecting, Authenticating, Error] with no client; success: [Connecting, Authenticating, Connected] with the error cleared |
| DeviceConnectionHook.DeviceConnection.Disconnect | src/hooks/useDeviceConnection.ts:58-82 | the watcher's updates, when closing the client delivers the closed-signal it awaits, come first; every state emitted is Disconnected (one to three of them); client, record and error are cleared and the manager disconnected |
| DeviceConnectionHook.DeviceConnection.TransportClosed | src/hooks/useDeviceConnection.ts:66-82 | a close the watcher awaits gives Disconnected with the client and record cleared; a cancelled or other close changes nothing |
| ScrcpySessionHook.StartTail | src/hooks/useScrcpySession.ts:31-42 | a start ends in Streaming or Error, and in Streaming exactly when both push and launch succeed |
| ScrcpySessionHook.StartTraces | src/hooks/useScrcpySession.ts:31-42 | a start emits [PushingServer, StartingStream, Streaming], [PushingServer, Error] or [PushingServer, StartingStream, Error] |
| ScrcpySessionHook.ScrcpySession.constructor | src/hooks/useScrcpySession.ts:18-20 | no client, no session, no start pending |
| ScrcpySessionHook.ScrcpySession.BeginStartSession | src/hooks/useScrcpySession.ts:22-31 | without ADB or while a start is pending nothing happens; otherwise the new session is stored before the push and PushingServer is emitted |
| ScrcpySessionHook.ScrcpySession.CompleteStartSession | src/hooks/useScrcpySession.ts:32-46 | the trace grows by `StartTail`; the client is set only when push and launch succeed, before Streaming; a failure reports its message (or "Failed to start screen mirror") before Error; the pending flag is cleared |
| ScrcpySessionHook.ScrcpySession.StopSession | src/hooks/useScrcpySession.ts:50-54 | stops the stored session if any and clears both session and client |
| ScrcpySessionHook.StopDuringSessionStart | src/hooks/useScrcpySession.ts:22-54 | a stop during a start leaves a published client and Streaming, with no session held |
| BrowserChecks.CheckBrowserCompatibility | src/lib/utils/browser-checks.ts:8-31 | the flags echo the inputs; one issue per missing capability, each message present iff its capability is missing, in the order secure context, WebUSB, WebCodecs; no issues iff nothing is missing |
| Application.MainUIDuringSessionStart | src/App.tsx:117-121 | the viewer is shown in Connected and in every session-start state except Error, and hidden before connection |
| Application.BlockedIffBlockingIssue | src/App.tsx:123 | blocked iff an issue other than the WebCodecs warning is listed; WebCodecs never changes it |
| Application.App.constructor | src/App.tsx:18-51 | all hooks start idle and disconnected |
| Application.App.AutoStartSession | src/App.tsx:59-63 | a session start begins iff the state is Connected, there is a client and no start is pending |
| Application.App.ClientChanged | src/App.tsx:65-83 | both cleanups run first; with a client, video decoding and audio playback start |
| Application.App.HandleDisconnect | src/App.tsx:100-105 | audio stopped, session stopped while its transport is still open, video stopped, then the transport disconnected, with the watcher's states if the close reaches it; everything is cleared |
| Application.App.HandleRetry | src/App.tsx:107-110 | on every path the full teardown (the watcher's states if the close reaches it, then Disconnected) comes first; then connect's states, with the final state, error text and client of each of its five outcomes |

## Left out

- Floating point: geometry and audio timing use exact reals. NaN, infinities, negative zero and rounding are not modelled. Container sizes are taken as positive.
- Strings are sequences of Unicode scalar values. JavaScript's `length` is computed where the code reads it (`KeyboardHandler.Utf16Length`). `trim` uses the ECMAScript whitespace set, written out as a table; all of it lies in the Basic Multilingual Plane.
- Library internals are not modelled. The ADB protocol, the scrcpy wire format, WebCodecs decoding, Web Audio playback and the renderers appear only as the outcomes their calls return.
- Logging (`console.*`) and the server-output drain's debug writes are left out.
- Interleavings are modelled only at the awaits named above. Two are not modelled: a stop during the audio player's own `resume` await, and a start racing a stop inside `startAudio` after the metadata arrives.
- `Promise.all` in `getDeviceInfo` rejects with the first rejection in time. The model reports the first failure in command order instead.
- `AudioPlayback.AudioPlayer.HandleDecodedAudio`: the resume of a suspended context inside the handler is not modelled.
- The timestamp conversion `Number(pts)` is taken as exact.
- The DOM listener registry is a set. Dispatch order between listeners is not modelled. There is one input manager per DOM, so the context-menu handler's identity is shared.
- The viewer container is always present.
- The unmount cleanups of the session, audio and video hooks are not modelled separately. They perform the same stops as `stopSession`, `stopAudio` and `stopDecoding`, without clearing state.
- Adb client identity: a client is identified by its transport. Reconnecting over a transport with the same identity counts as the same client.
- `KeyboardHandler.HandleKeyEvent`: the KeyT row of the table is not checked on its own by a concrete lookup. The property that shift or alt plus KeyT follows the normal mapping follows from the general contract, which applies the denylist only with ctrl or meta.
- Presentation components, key-tap buttons, fullscreen, screenshots, the browser-compat memo, the input-handler effect wiring, the server binary fetch, the credential store and the scrcpy option builder are not part of this model.

=== FILE: app.dfy ===
/** The application shell: the four hooks side by side, the effects that
    tie them together (the session auto-start and the video and audio
    effects on the client), the disconnect and retry handlers, and the two
    predicates that pick what the page shows. */
module Application {
  import opened Types
  import opened AdbDevice
  import opened ScrcpyClient
  import opened DeviceConnectionHook
  import opened ScrcpySessionHook
  import opened VideoDecoderSelection
  import opened VideoHook
  import opened AudioPlayback
  import opened AudioHook
  import opened BrowserChecks

  /** The main viewer is shown from the moment a device is connected
      until the session fails or the device goes away. */
  predicate ShowMainUI(state: ConnectionState) {
    match state
    case Connected | PushingServer | StartingStream | Streaming => true
    case Disconnected | Connecting | Authenticating | Error => false
  }

  /** The viewer stays up through every state a successful connection and
      session start pass through, is hidden before a device is connected,
      and comes down exactly when the start fails. */
  lemma {:induction false} MainUIDuringSessionStart(pushed: bool, launched: bool)
    ensures ShowMainUI(Connected) && ShowMainUI(PushingServer)
    ensures forall i :: 0 <= i < |StartTail(pushed, launched)| ==>
              (ShowMainUI(StartTail(pushed, launched)[i]) <==> StartTail(pushed, launched)[i] != Error)
    ensures !ShowMainUI(StartTail(pushed, launched)[|StartTail(pushed, launched)| - 1]) <==> !(pushed && launched)
    ensures !ShowMainUI(Disconnected) && !ShowMainUI(Connecting) && !ShowMainUI(Authenticating)
  {
    var tail := StartTail(pushed, launched);
    if !pushed {
      assert tail == [Error];
    } else if !launched {
      assert tail == [StartingStream, Error];
    } else {
      assert tail == [StartingStream, Streaming];
    }
  }

  /** `isBlocked`: the page refuses to run without WebUSB or outside a
      secure context. */
  predicate IsBlocked(c: BrowserCompatibility) {
    !c.hasWebUSB || !c.isSecureContext
  }

  /** On a report of the compatibility check, the page is blocked exactly
      when an issue other than the WebCodecs warning is listed; whether
      WebCodecs is present never changes that. */
  lemma {:induction false} BlockedIffBlockingIssue(c: BrowserCompatibility)
    requires Reports(c)
    ensures IsBlocked(c) <==> exists i :: 0 <= i < |c.issues| && c.issues[i] != NoWebCodecsIssue
    ensures IsBlocked(c) == IsBlocked(c.(hasWebCodecs := !c.hasWebCodecs))
  {
    if IsBlocked(c) {
      var m := if !c.isSecureContext then InsecureContextIssue else NoWebUsbIssue;
      assert m in c.issues;
      var i :| 0 <= i < |c.issues| && c.issues[i] == m;
      assert c.issues[i] != NoWebCodecsIssue;
    } else {
      forall i | 0 <= i < |c.issues| ensures c.issues[i] == NoWebCodecsIssue {
        assert |c.issues| <= 1;
        assert c.issues[0] in c.issues;
      }
    }
  }

  /** The steps of a teardown, in the order they happen. A session stop
      records the transport that was open while the session was closed. */
  datatype Teardown =
    | AudioStopped
    | SessionStopped(openTransport: Option<nat>)
    | VideoStopped
    | TransportDisconnected

  class App {
    const conn: DeviceConnection
    const session: ScrcpySession
    const video: VideoDecoderHook
    const audio: AudioPlayerHook
    /** The teardown steps taken so far. */
    ghost var teardowns: seq<Teardown>

    ghost predicate Valid()
      reads this, conn, conn.manager, session, session.session, video, audio, audio.player
    {
      conn.Valid() && session.Valid() && video.Valid() && audio.Valid()
    }

    constructor(webUsbAvailable: bool)
      ensures Valid()
      ensures conn.state == Disconnected && conn.adb == None
      ensures session.client == None && video.decoder == None && audio.player == null
      ensures teardowns == []
    {
      conn := new DeviceConnection(webUsbAvailable);
      session := new ScrcpySession();
      video := new VideoDecoderHook();
      audio := new AudioPlayerHook();
      teardowns := [];
    }

    /** The auto-start effect: a session start begins exactly when the
        state is connected and there is an ADB client (and no start is
        already pending, which the session hook itself refuses). */
    method AutoStartSession() returns (pending: ScrcpySessionManager?)
      requires Valid()
      modifies conn, session
      ensures Valid()
      ensures pending != null <==> old(conn.state) == Connected && old(conn.adb).Some? && !old(session.starting)
      ensures pending == null ==> conn.trace == old(conn.trace) && session.session == old(session.session)
      ensures pending != null ==>
                && conn.trace == old(conn.trace) + [PushingServer]
                && session.session == pending && pending.adb == old(conn.adb).value
    {
      pending := null;
      if conn.state == Connected && conn.adb.Some? {
        pending := session.BeginStartSession(conn);
      }
    }

    /** The two effects on the client, re-run when it changes: both
        cleanups (stop the video, stop the audio) run before either effect;
        then, with a client, video decoding and audio playback start. */
    method ClientChanged(hasVideoStream: bool, caps: Capabilities, hasAudioStream: bool)
      returns (videoStarted: Option<nat>, audioPending: bool)
      requires Valid()
      modifies video, audio, audio.player
      ensures Valid()
      ensures video.abort == None
      ensures old(audio.player) != null ==> old(audio.player).audioContext == None && old(audio.player).decoder == None
      ensures session.client.None? ==>
                && videoStarted == None && video.decoder == None && video.canvas == None
                && !audioPending && audio.player == null
      ensures session.client.Some? ==>
                && (videoStarted.Some? <==> hasVideoStream)
                && (video.decoder.Some? <==> hasVideoStream)
                && (hasVideoStream ==> video.decoder.value.result == CreateDecoder(caps))
                && audio.player == null
                && (audioPending <==> hasAudioStream && !old(audio.starting))
    {
      video.StopDecoding();
      audio.StopAudio();
      videoStarted, audioPending := None, false;
      if session.client.Some? {
        videoStarted := video.BeginStartDecoding(hasVideoStream, caps);
        audioPending := audio.BeginStartAudio(hasAudioStream);
      }
    }

    /** `handleDisconnect`: stop the audio, stop the session (awaited),
        stop the video, then disconnect the transport (awaited). The
        session's client is closed while its transport is still open, and
        everything is torn down at the end. `watcherFires` is whether the
        transport's closed-signal reaches the connection watcher during the
        disconnect. */
    method HandleDisconnect(sessionClosed: Outcome, adbClosed: Outcome, watcherFires: bool)
      requires Valid()
      modifies this, conn, conn.manager, session, session.session, video, audio, audio.player
      ensures Valid()
      ensures teardowns == old(teardowns) + [AudioStopped, SessionStopped(old(conn.manager.Disconnected())),
                                             VideoStopped, TransportDisconnected]
      ensures audio.player == null
      ensures session.session == null && session.client == None
      ensures old(session.session) != null ==> old(session.session).client == None
      ensures video.decoder == None && video.canvas == None && video.abort == None
      ensures conn.state == Disconnected
      ensures conn.trace == old(conn.trace) + old(conn.CloseEmits(watcherFires)) + [Disconnected]
      ensures conn.adb == None && conn.deviceInfo == None && conn.error == None
      ensures conn.manager.transport == None && conn.manager.adb == None
    {
      audio.StopAudio();
      teardowns := teardowns + [AudioStopped];
      session.StopSession(sessionClosed);
      teardowns := teardowns + [SessionStopped(conn.manager.Disconnected())];
      video.StopDecoding();
      teardowns := teardowns + [VideoStopped];
      conn.Disconnect(adbClosed, watcherFires);
      teardowns := teardowns + [TransportDisconnected];
    }

    /** `handleRetry`: a complete disconnect, then a new connection attempt
        with the picker, connection, authentication and shell outcomes
        given. */
    method HandleRetry(sessionClosed: Outcome, adbClosed: Outcome, watcherFires: bool,
                       picked: Result<Option<UsbDevice>, Thrown>, connection: Outcome,
                       authenticated: Result<nat, Thrown>, shell: seq<string> -> Result<string, Thrown>)
      requires Valid()
      modifies this, conn, conn.manager, session, session.session, video, audio, audio.player
      ensures Valid()
      ensures teardowns == old(teardowns) + [AudioStopped, SessionStopped(old(conn.manager.Disconnected())),
                                             VideoStopped, TransportDisconnected]
      ensures session.session == null && session.client == None && audio.player == null
      ensures video.decoder == None
      // the whole teardown comes first, on every path
      ensures var pre := old(conn.trace) + old(conn.CloseEmits(watcherFires)) + [Disconnected];
              |pre| <= |conn.trace| && conn.trace[..|pre|] == pre
      ensures !conn.manager.supported ==>
                && conn.trace == old(conn.trace) + old(conn.CloseEmits(watcherFires)) + [Disconnected, Error]
                && conn.error == Some("WebUSB is not supported in this browser.") && conn.adb == None
      ensures conn.manager.supported && picked.Failure? ==>
                && conn.trace == old(conn.trace) + old(conn.CloseEmits(watcherFires))
                                 + [Disconnected, Connecting, Error]
                && conn.error == Some(MessageOf(picked.error, "Connection failed")) && conn.adb == None
      ensures conn.manager.supported && picked.Success? && picked.value.Some? && connection.Threw? ==>
                && conn.trace == old(conn.trace) + old(conn.CloseEmits(watcherFires))
                                 + [Disconnected, Connecting, Authenticating, Error]
                && conn.error == Some(MessageOf(connection.error, "Connection failed")) && conn.adb == None
      ensures && conn.manager.supported && picked.Success? && picked.value.Some? && connection.Done?
              && authenticated.Failure? ==>
                && conn.trace == old(conn.trace) + old(conn.CloseEmits(watcherFires))
                                 + [Disconnected, Connecting, Authenticating, Error]
                && conn.error == Some(MessageOf(authenticated.error, "Connection failed")) && conn.adb == None
      ensures conn.manager.supported && picked.Success? && picked.value.Some? && connection.Done?
              && authenticated.Success? ==>
                && conn.trace == old(conn.trace) + old(conn.CloseEmits(watcherFires))
                                 + [Disconnected, Connecting, Authenticating, Connected]
                && conn.error == None
                && conn.adb == Some(AdbClient(authenticated.value))
      ensures conn.manager.supported && picked == Success(None) ==>
                && conn.trace == old(conn.trace) + old(conn.CloseEmits(watcherFires))
                                 + [Disconnected, Connecting, Disconnected]
                && conn.error == None && conn.adb == None
    {
      HandleDisconnect(sessionClosed, adbClosed, watcherFires);
      ghost var between := conn.trace;
      conn.Connect(picked, connection, authenticated, shell);
      assert conn.trace[..|between|] == between;
    }
  }
}

=== FILE: audio_hook.dfy ===
/** The audio hook: decides from the audio stream's metadata whether to play,
    to drain the stream silently, or to do nothing, and owns at most one
    player. Starting is guarded against a second start while one is
    pending; the call is split at its first await (the metadata) so that
    such a second call can be stated. */
module AudioHook {
  import opened Types
  import opened AudioPlayback

  /** What the audio stream's metadata promise resolves to. A successful
      stream carries the codec's WebCodecs identifier, which may be
      missing. */
  datatype AudioMetadata =
    | AudioDisabled
    | AudioErrored
    | AudioSuccess(webCodecId: Option<string>)

  /** What `AudioDecoder.isConfigSupported` did: resolved supported,
      resolved unsupported, or threw. */
  datatype SupportProbe = Supported | Unsupported | ProbeThrew

  /** The three outcomes of negotiation. */
  datatype AudioDecision = NoAudio | Drain | Play(codecId: string)

  /** A codec identifier is usable when present and non-empty (the source
      tests it for truthiness). */
  predicate HasCodec(m: AudioMetadata) {
    m.AudioSuccess? && m.webCodecId.Some? && m.webCodecId.value != ""
  }

  /** The negotiation ladder of `startAudio`: `metadata` is `None` when the
      client has no audio stream; `decoderAvailable` tells whether the
      browser defines `AudioDecoder`; `probe` is consulted only after both
      earlier checks pass. */
  function Negotiate(metadata: Option<AudioMetadata>, decoderAvailable: bool, probe: SupportProbe)
    : (d: AudioDecision)
    ensures d == NoAudio <==> metadata.None? || !metadata.value.AudioSuccess?
    ensures d == Drain <==>
              && metadata.Some? && metadata.value.AudioSuccess?
              && (!HasCodec(metadata.value) || !decoderAvailable || probe == Unsupported)
    ensures d.Play? <==>
              metadata.Some? && HasCodec(metadata.value) && decoderAvailable && probe != Unsupported
    ensures d.Play? ==> metadata == Some(AudioSuccess(Some(d.codecId))) && d.codecId != ""
  {
    if metadata.None? then NoAudio
    else match metadata.value
      case AudioDisabled => NoAudio
      case AudioErrored => NoAudio
      case AudioSuccess(codecId) =>
        if codecId.None? || codecId.value == "" then Drain
        else if !decoderAvailable then Drain
        else if probe == Unsupported then Drain
        else Play(codecId.value)
  }

  /** A support probe that throws is only logged: with a codec and a
      decoder, playback still starts, exactly as when the probe says yes. */
  lemma ThrowingProbeStillPlays(metadata: Option<AudioMetadata>)
    requires metadata.Some? && HasCodec(metadata.value)
    ensures Negotiate(metadata, true, ProbeThrew) == Negotiate(metadata, true, Supported)
    ensures Negotiate(metadata, true, ProbeThrew) == Play(metadata.value.webCodecId.value)
  {
  }

  /** The hook's state: the current player, the in-progress flag and how
      many streams were drained into a discarding sink. */
  class AudioPlayerHook {
    var player: AudioPlayer?
    var starting: bool
    var drained: nat

    /** A held player is consistent, and while a start is pending there is
        no player (the pending start cleared it). */
    ghost predicate Valid()
      reads this, player
    {
      && (player != null ==> player.Valid())
      && (starting ==> player == null)
    }

    constructor()
      ensures Valid() && player == null && !starting && drained == 0
    {
      player := null;
      starting := false;
      drained := 0;
    }

    /** `startAudio` up to its first await. A second call while a start is
        pending returns with no effect. Otherwise any existing player is
        stopped and dropped; without an audio stream the call ends there
        (`pending` false), else it now awaits the metadata. */
    method BeginStartAudio(hasAudioStream: bool) returns (pending: bool)
      requires Valid()
      modifies this, player
      ensures Valid()
      ensures old(starting) ==> !pending && starting && player == old(player) && drained == old(drained)
      ensures !old(starting) ==>
                && player == null
                && (old(player) != null ==>
                      && old(player).audioContext == None && old(player).decoder == None
                      && old(player).openContexts == {} && old(player).openDecoders == {}
                      && old(player).abortController == None && old(player).openPipes == {}
                      && !old(player).playing)
                && pending == hasAudioStream
                && starting == pending
                && drained == old(drained)
    {
      if starting {
        return false;
      }
      starting := true;
      if player != null {
        player.Stop();
      }
      player := null;
      if !hasAudioStream {
        starting := false;
        return false;
      }
      pending := true;
    }

    /** The rest of `startAudio`, once the metadata has arrived: negotiate,
        then drain the stream, or create and start a player (kept even when
        its start throws: the error is only logged). The in-progress flag is
        cleared on every path. */
    method FinishStartAudio(metadata: AudioMetadata, decoderAvailable: bool, probe: SupportProbe,
                            startsSuspended: bool, resumeSucceeds: bool, configureThrows: bool)
      returns (decision: AudioDecision)
      requires Valid() && starting
      modifies this
      ensures Valid()
      ensures !starting
      ensures decision == Negotiate(Some(metadata), decoderAvailable, probe)
      ensures decision != NoAudio ==> decision.Play? || drained == old(drained) + 1
      ensures decision == NoAudio ==> drained == old(drained) && player == null
      ensures decision == Drain ==> player == null
      ensures decision.Play? ==>
                && drained == old(drained)
                && player != null && fresh(player)
                && player.codecId == decision.codecId
                && player.audioContext.Some? && player.decoder.Some?
                && (player.playing <==> !configureThrows)
    {
      decision := Negotiate(Some(metadata), decoderAvailable, probe);
      match decision {
        case NoAudio =>
        case Drain =>
          drained := drained + 1;
        case Play(codecId) =>
          var p := new AudioPlayer();
          player := p;
          var _ := p.Start(codecId, startsSuspended, resumeSucceeds, configureThrows);
      }
      starting := false;
    }

    /** `stopAudio`: stops and drops the current player; nothing to do
        without one. */
    method StopAudio()
      requires Valid()
      modifies this, player
      ensures Valid()
      ensures player == null && starting == old(starting) && drained == old(drained)
      ensures old(player) != null ==> && old(player).audioContext == None && old(player).decoder == None
                                      && !old(player).playing
                                      && old(player).openContexts == {} && old(player).openDecoders == {}
                                      && old(player).openPipes == {}
    {
      if player != null {
        player.Stop();
      }
      player := null;
    }
  }
}

=== FILE: audio_player.dfy ===
/** The audio player: one audio context, one audio decoder and one packet
    pipe per start, and a single cursor that schedules decoded PCM buffers
    back to back on the context's clock. The browser objects are records
    held by the player (nothing else holds them); what the browser decides
    (whether a context starts suspended, whether a call throws, what the
    clock reads) arrives as parameters. */
module AudioPlayback {
  import opened Types

  /** The sample rate the context and the decoder are created with. */
  const SampleRate: int := 48000
  /** The channel count the decoder is configured with. */
  const ChannelCount: int := 2
  /** How far ahead of the clock a late buffer is scheduled. */
  const CatchUpOffset: real := 0.01
  /** The codec whose packets are all key frames and whose configuration
      packets are skipped. */
  const Opus: string := "opus"

  datatype ContextState = Suspended | Running | Closed
  datatype DecoderState = Unconfigured | Configured | DecoderClosed

  datatype DecoderConfig = DecoderConfig(
    codec: string,
    sampleRate: int,
    numberOfChannels: int,
    description: Option<seq<bv8>>)

  datatype ChunkType = Key | Delta

  /** An `EncodedAudioChunk` handed to the decoder. */
  datatype EncodedChunk = EncodedChunk(chunkType: ChunkType, timestamp: int, data: seq<bv8>)

  /** An `AudioDecoder`: its state, its current configuration and the
      chunks it has accepted, in order. */
  datatype Decoder = Decoder(id: nat, state: DecoderState, config: Option<DecoderConfig>,
                             accepted: seq<EncodedChunk>)

  /** Which copy of a channel's samples worked: the `f32-planar` one, or
      the retry in the frame's own format. */
  datatype CopyFormat = Planar | NativeFormat
  datatype CopyOutcome = CopiedPlanar | CopiedNative | CopyFailed

  /** One buffer started on the context: when it starts, how long it
      plays, what the clock read when it was scheduled, and the format each
      channel was copied in. */
  datatype ScheduledBuffer = ScheduledBuffer(
    start: real,
    duration: real,
    clock: real,
    channels: seq<CopyFormat>,
    frames: nat)

  /** An `AudioContext` and the buffers started on it, in order. */
  datatype Context = Context(id: nat, state: ContextState, started: seq<ScheduledBuffer>)

  /** A packet of the audio stream. */
  datatype Packet =
    | Configuration(data: seq<bv8>)
    | Data(data: seq<bv8>, keyframe: Option<bool>, pts: Option<int>)

  function End(b: ScheduledBuffer): real { b.start + b.duration }

  /** How the cursor places a buffer scheduled when it reads `cursor` and the
      clock reads `clock`: at the cursor, or just after the clock if the
      cursor has fallen behind. */
  function StartFor(cursor: real, clock: real): (start: real)
    ensures start >= clock
    ensures cursor >= clock ==> start == cursor
    ensures cursor < clock ==> start == clock + CatchUpOffset
  {
    if cursor < clock then clock + CatchUpOffset else cursor
  }

  /** The schedule of one context, with the cursor `cursor`: every buffer
      starts no earlier than the clock read when it was scheduled, either
      exactly where the previous one ends or, when that was already past,
      just after the clock; the cursor is where the last buffer ends (0
      before the first). */
  ghost predicate Gapless(s: seq<ScheduledBuffer>, cursor: real) {
    && (forall i :: 0 <= i < |s| ==> s[i].start >= s[i].clock && s[i].duration > 0.0)
    && (|s| > 0 ==> s[0].start == StartFor(0.0, s[0].clock))
    && (forall i :: 0 < i < |s| ==> s[i].start == StartFor(End(s[i - 1]), s[i].clock))
    && cursor == (if s == [] then 0.0 else End(s[|s| - 1]))
  }

  /** Buffers never overlap: each one starts strictly after every earlier
      one and no earlier than it ends. */
  lemma {:induction false} ScheduleOrdered(s: seq<ScheduledBuffer>, cursor: real)
    requires Gapless(s, cursor)
    ensures forall i, j :: 0 <= i < j < |s| ==> End(s[i]) <= s[j].start
    ensures forall i, j :: 0 <= i < j < |s| ==> s[i].start < s[j].start
  {
    if |s| > 1 {
      var t := s[..|s| - 1];
      ScheduleOrdered(t, End(t[|t| - 1]));
      var n := |s| - 1;
      forall i | 0 <= i < n ensures End(s[i]) <= s[n].start {
        if i < n - 1 {
          assert End(t[i]) <= t[n - 1].start;
        }
      }
    }
  }

  /** Scheduling one more buffer at the place the cursor gives keeps the
      schedule gapless, with the cursor at the new buffer's end. */
  lemma GaplessExtend(s: seq<ScheduledBuffer>, cursor: real, b: ScheduledBuffer)
    requires Gapless(s, cursor)
    requires b.start == StartFor(cursor, b.clock) && b.duration > 0.0
    ensures Gapless(s + [b], End(b))
  {
    var t := s + [b];
    forall i | 0 < i < |t| ensures t[i].start == StartFor(End(t[i - 1]), t[i].clock) {
      if i == |s| {
        assert t[i - 1] == s[|s| - 1];
      } else {
        assert t[i] == s[i] && t[i - 1] == s[i - 1];
      }
    }
  }

  /** `AudioPlayer`. */
  class AudioPlayer {
    var audioContext: Option<Context>
    var decoder: Option<Decoder>
    /** The abort controller of the running pipe, by identity. */
    var abortController: Option<nat>
    var playing: bool
    var nextStartTime: real
    /** The codec string the packet writer closes over. */
    var codecId: string
    /** The identity the next created browser object receives. */
    var nextId: nat
    /** Contexts not yet closed, decoders not yet closed and pipes not yet
        aborted, among everything this player ever created. */
    ghost var openContexts: set<nat>
    ghost var openDecoders: set<nat>
    ghost var openPipes: set<nat>

    /** Nothing leaks: the only open context, decoder and pipe are the ones
        the player holds, so at most one of each is alive. The cursor obeys
        the schedule of the current context, and is 0 without one. */
    ghost predicate Valid()
      reads this
    {
      && (audioContext.None? ==> nextStartTime == 0.0)
      && (audioContext.Some? ==>
            audioContext.value.id < nextId && Gapless(audioContext.value.started, nextStartTime))
      && (decoder.Some? ==> decoder.value.id < nextId)
      && (abortController.Some? ==> abortController.value < nextId)
      && openContexts == (if audioContext.Some? && audioContext.value.state != Closed
                          then {audioContext.value.id} else {})
      && openDecoders == (if decoder.Some? && decoder.value.state != DecoderClosed
                          then {decoder.value.id} else {})
      && openPipes == (if abortController.Some? then {abortController.value} else {})
    }

    constructor()
      ensures Valid()
      ensures audioContext == None && decoder == None && abortController == None
      ensures !playing && nextStartTime == 0.0 && nextId == 0
    {
      audioContext := None;
      decoder := None;
      abortController := None;
      playing := false;
      nextStartTime := 0.0;
      codecId := "";
      nextId := 0;
      openContexts := {};
      openDecoders := {};
      openPipes := {};
    }

    /** `stop`: aborts the pipe, closes the decoder unless it is already
        closed, closes the context and resets the cursor. Safe to call in
        any state, any number of times. */
    method Stop()
      requires Valid()
      modifies this
      ensures Valid()
      ensures !playing && abortController == None && decoder == None && audioContext == None
      ensures nextStartTime == 0.0
      ensures openContexts == {} && openDecoders == {} && openPipes == {}
      ensures codecId == old(codecId) && nextId == old(nextId)
    {
      playing := false;
      if abortController.Some? {
        openPipes := openPipes - {abortController.value};
      }
      abortController := None;
      if decoder.Some? && decoder.value.state != DecoderClosed {
        openDecoders := openDecoders - {decoder.value.id};
      }
      decoder := None;
      if audioContext.Some? {
        openContexts := openContexts - {audioContext.value.id};
      }
      audioContext := None;
      nextStartTime := 0.0;
    }

    /** `start(stream, codec)`. The new context starts suspended when
        `startsSuspended`; the awaited resume then takes effect only when
        `resumeSucceeds` (a failed resume is only logged). The initial
        `configure` throws when `configureThrows`; `start` then rejects with
        the context and the unconfigured decoder in place and no pipe. */
    method Start(codec: string, startsSuspended: bool, resumeSucceeds: bool, configureThrows: bool)
      returns (ok: bool)
      requires Valid()
      modifies this
      ensures Valid()
      ensures ok <==> !configureThrows
      ensures nextId == old(nextId) + 3 && codecId == codec
      // everything from a previous start was released first
      ensures audioContext == Some(Context(old(nextId),
                                           if startsSuspended && !resumeSucceeds then Suspended else Running,
                                           []))
      ensures openContexts == {old(nextId)}
      ensures nextStartTime == 0.0
      ensures ok ==> decoder == Some(Decoder(old(nextId) + 1, Configured,
                                             Some(DecoderConfig(codec, SampleRate, ChannelCount, None)), []))
      ensures ok ==> && abortController == Some(old(nextId) + 2)
                     && openPipes == {old(nextId) + 2}
                     && playing
      ensures !ok ==> && decoder == Some(Decoder(old(nextId) + 1, Unconfigured, None, []))
                      && abortController == None && openPipes == {}
                      && !playing
      ensures openDecoders == {old(nextId) + 1}
    {
      Stop();
      var state := if startsSuspended then Suspended else Running;
      if startsSuspended && resumeSucceeds {
        state := Running;
      }
      ok := Open(codec, state, configureThrows);
    }

    /** The part of `start` after `stop`: create the context in `state`,
        the decoder, then configure it and start the pipe. */
    method Open(codec: string, state: ContextState, configureThrows: bool) returns (ok: bool)
      requires Valid()
      requires audioContext == None && decoder == None && abortController == None && !playing
      requires state != Closed
      modifies this
      ensures Valid()
      ensures ok <==> !configureThrows
      ensures nextId == old(nextId) + 3 && codecId == codec
      ensures audioContext == Some(Context(old(nextId), state, []))
      ensures openContexts == {old(nextId)} && openDecoders == {old(nextId) + 1}
      ensures nextStartTime == 0.0
      ensures ok ==> decoder == Some(Decoder(old(nextId) + 1, Configured,
                                             Some(DecoderConfig(codec, SampleRate, ChannelCount, None)), []))
      ensures ok ==> abortController == Some(old(nextId) + 2) && openPipes == {old(nextId) + 2} && playing
      ensures !ok ==> && decoder == Some(Decoder(old(nextId) + 1, Unconfigured, None, []))
                      && abortController == None && openPipes == {} && !playing
    {
      var contextId, decoderId, controllerId := nextId, nextId + 1, nextId + 2;
      audioContext, nextStartTime, codecId, nextId := Some(Context(contextId, state, [])), 0.0, codec, nextId + 3;
      openContexts := openContexts + {contextId};
      decoder := Some(Decoder(decoderId, Unconfigured, None, []));
      openDecoders := openDecoders + {decoderId};
      if configureThrows {
        return false;
      }
      decoder := Some(Decoder(decoderId, Configured, Some(DecoderConfig(codec, SampleRate, ChannelCount, None)), []));
      abortController, playing := Some(controllerId), true;
      openPipes := openPipes + {controllerId};
      ok := true;
    }

    /** The pipe's `write` for one packet. Packets reaching a missing or
        closed decoder are ignored. A configuration packet reconfigures the
        decoder with the packet as its description, except for Opus; a
        failing reconfigure (`reconfigureThrows`) is only logged. A data
        packet is decoded as a key frame when the codec is Opus or the
        packet is not flagged as a delta frame, stamped with its
        presentation time or 0; a failing decode (`decodeThrows`, or any
        decode before the decoder is configured) skips the packet. */
    method WritePacket(packet: Packet, reconfigureThrows: bool, decodeThrows: bool)
      requires Valid()
      modifies this
      ensures Valid()
      ensures audioContext == old(audioContext) && nextStartTime == old(nextStartTime)
      ensures abortController == old(abortController) && playing == old(playing)
      ensures codecId == old(codecId) && nextId == old(nextId)
      ensures openContexts == old(openContexts) && openDecoders == old(openDecoders)
      ensures openPipes == old(openPipes)
      ensures old(decoder).None? || old(decoder).value.state == DecoderClosed ==> decoder == old(decoder)
      ensures old(decoder).Some? && old(decoder).value.state != DecoderClosed ==>
        var d := old(decoder).value;
        match packet
        case Configuration(data) =>
          decoder == (if codecId == Opus || reconfigureThrows then Some(d)
                      else Some(d.(state := Configured,
                                   config := Some(DecoderConfig(codecId, SampleRate, ChannelCount, Some(data))))))
        case Data(data, keyframe, pts) =>
          decoder == (if decodeThrows || d.state == Unconfigured then Some(d)
                      else Some(d.(accepted := d.accepted +
                        [EncodedChunk(if codecId == Opus || keyframe != Some(false) then Key else Delta,
                                      pts.GetOr(0), data)])))
    {
      if decoder.None? || decoder.value.state == DecoderClosed {
        return;
      }
      match packet {
        case Configuration(data) =>
          if codecId != Opus && !reconfigureThrows {
            decoder := Some(decoder.value.(state := Configured,
                                           config := Some(DecoderConfig(codecId, SampleRate, ChannelCount, Some(data)))));
          }
        case Data(data, keyframe, pts) =>
          var isKey := if codecId == Opus then true else keyframe != Some(false);
          var chunk := EncodedChunk(if isKey then Key else Delta,
                                    if pts.Some? then pts.value else 0, data);
          if !decodeThrows && decoder.value.state != Unconfigured {
            decoder := Some(decoder.value.(accepted := decoder.value.accepted + [chunk]));
          }
      }
    }

    /** The decoder's `error` callback. The player only logs; a decoder that
        reports an error has closed itself. */
    method DecoderErrored()
      requires Valid()
      modifies this
      ensures Valid()
      ensures decoder == (if old(decoder).Some? then Some(old(decoder).value.(state := DecoderClosed)) else None)
      ensures audioContext == old(audioContext) && nextStartTime == old(nextStartTime)
      ensures abortController == old(abortController) && playing == old(playing)
      ensures codecId == old(codecId) && nextId == old(nextId)
    {
      if decoder.Some? {
        openDecoders := openDecoders - {decoder.value.id};
        decoder := Some(decoder.value.(state := DecoderClosed));
      }
    }

    /** The pipe's `finally`: the pipe ended, by abort, error or end of
        stream. */
    method PipeEnded()
      requires Valid()
      modifies this
      ensures Valid()
      ensures !playing
      ensures audioContext == old(audioContext) && decoder == old(decoder)
      ensures abortController == old(abortController) && nextStartTime == old(nextStartTime)
      ensures codecId == old(codecId) && nextId == old(nextId)
    {
      playing := false;
    }

    /** `handleDecodedAudio` for a frame of `frames` samples per channel at
        `sampleRate`, whose channels copy out as `copies` says, while the
        context's clock reads `currentTime`. A missing or closed context, an
        empty frame or a channel that fails in both formats drops the frame
        without touching the cursor; otherwise the buffer is started at the
        cursor, or just after the clock if the cursor has fallen behind, and
        the cursor moves to the buffer's end. */
    method HandleDecodedAudio(frames: nat, sampleRate: real, copies: seq<CopyOutcome>, currentTime: real)
      returns (scheduled: Option<ScheduledBuffer>)
      requires Valid()
      requires sampleRate > 0.0
      modifies this
      ensures Valid()
      ensures scheduled.Some? <==>
                && old(audioContext).Some? && old(audioContext).value.state != Closed
                && frames > 0
                && forall i :: 0 <= i < |copies| ==> copies[i] != CopyFailed
      ensures scheduled.None? ==> audioContext == old(audioContext) && nextStartTime == old(nextStartTime)
      ensures scheduled.Some? ==>
        var start := StartFor(old(nextStartTime), currentTime);
        var buffer := scheduled.value;
        && old(audioContext).Some?
        && audioContext == Some(old(audioContext).value.(started := old(audioContext).value.started + [buffer]))
        && buffer.start == start && start >= currentTime
        && buffer.duration == frames as real / sampleRate
        && buffer.clock == currentTime && buffer.frames == frames
        && |buffer.channels| == |copies|
        && (forall i :: 0 <= i < |copies| ==>
              buffer.channels[i] == (if copies[i] == CopiedPlanar then Planar else NativeFormat))
        && nextStartTime == start + frames as real / sampleRate
      ensures decoder == old(decoder) && abortController == old(abortController)
      ensures playing == old(playing) && codecId == old(codecId) && nextId == old(nextId)
    {
      if audioContext.None? || audioContext.value.state == Closed {
        return None;
      }
      if frames == 0 {
        return None;
      }

      var formats: seq<CopyFormat> := [];
      var ch := 0;
      while ch < |copies|
        invariant 0 <= ch <= |copies|
        invariant |formats| == ch
        invariant forall i :: 0 <= i < ch ==> copies[i] != CopyFailed
        invariant forall i :: 0 <= i < ch ==>
                    formats[i] == (if copies[i] == CopiedPlanar then Planar else NativeFormat)
      {
        match copies[ch] {
          case CopiedPlanar => formats := formats + [Planar];
          case CopiedNative => formats := formats + [NativeFormat];
          case CopyFailed => return None;
        }
        ch := ch + 1;
      }

      var duration := frames as real / sampleRate;
      if nextStartTime < currentTime {
        nextStartTime := currentTime + CatchUpOffset;
      }
      var buffer := ScheduledBuffer(nextStartTime, duration, currentTime, formats, frames);
      var context := audioContext.value;
      GaplessExtend(context.started, old(nextStartTime), buffer);
      audioContext := Some(context.(started := context.started + [buffer]));
      nextStartTime := nextStartTime + duration;
      scheduled := Some(buffer);
    }
  }
}

=== FILE: browser_checks.dfy ===
/** The browser compatibility check: which of WebUSB, WebCodecs and a
    secure context the page has, and the issues to show, one message per
    missing capability. */
module BrowserChecks {

  const InsecureContextIssue: string :=
    "This page must be served over HTTPS or localhost for WebUSB to work."
  const NoWebUsbIssue: string :=
    "WebUSB is not supported in your browser. Please use Chrome or Edge."
  const NoWebCodecsIssue: string :=
    "WebCodecs not available \U{2014} software video decoding will be used (slower)."

  datatype BrowserCompatibility = BrowserCompatibility(
    hasWebUSB: bool,
    hasWebCodecs: bool,
    isSecureContext: bool,
    issues: seq<string>)

  /** The order issues are listed in: the secure context, then WebUSB,
      then WebCodecs. */
  function Rank(issue: string): nat {
    if issue == InsecureContextIssue then 0
    else if issue == NoWebUsbIssue then 1
    else if issue == NoWebCodecsIssue then 2
    else 3
  }

  /** How many of the three capabilities are missing. */
  function Missing(hasWebUSB: bool, hasWebCodecs: bool, isSecureContext: bool): nat {
    (if isSecureContext then 0 else 1) + (if hasWebUSB then 0 else 1) + (if hasWebCodecs then 0 else 1)
  }

  /** The issues of `c` report exactly its missing capabilities, each
      once, in rank order. */
  predicate Reports(c: BrowserCompatibility) {
    && (InsecureContextIssue in c.issues <==> !c.isSecureContext)
    && (NoWebUsbIssue in c.issues <==> !c.hasWebUSB)
    && (NoWebCodecsIssue in c.issues <==> !c.hasWebCodecs)
    && |c.issues| == Missing(c.hasWebUSB, c.hasWebCodecs, c.isSecureContext)
    && (forall i, j :: 0 <= i < j < |c.issues| ==> Rank(c.issues[i]) < Rank(c.issues[j]))
  }

  /** `checkBrowserCompatibility`, with the three probed capabilities as
      inputs. */
  method CheckBrowserCompatibility(hasWebUSB: bool, hasWebCodecs: bool, isSecureContext: bool)
    returns (c: BrowserCompatibility)
    ensures c.hasWebUSB == hasWebUSB && c.hasWebCodecs == hasWebCodecs
    ensures c.isSecureContext == isSecureContext
    ensures Reports(c)
    ensures c.issues == [] <==> hasWebUSB && hasWebCodecs && isSecureContext
  {
    var issues: seq<string> := [];
    if !isSecureContext {
      issues := issues + [InsecureContextIssue];
    }
    if !hasWebUSB {
      issues := issues + [NoWebUsbIssue];
    }
    if !hasWebCodecs {
      issues := issues + [NoWebCodecsIssue];
    }
    c := BrowserCompatibility(hasWebUSB, hasWebCodecs, isSecureContext, issues);
  }
}

=== FILE: control.dfy ===
/** The control messages the input handlers hand to the mirroring protocol's
    message writer, and the effects a DOM event handler has on its event.
    The numeric values of the protocol's enumerations belong to the protocol
    library; here each enumeration is a set of distinct abstract values. */
module ControlMessages {

  /** Motion-event actions used for pointer input. */
  datatype MotionAction = Down | Up | Move | Cancel | HoverMove

  /** Motion-event buttons. */
  datatype MotionButton = Primary | Secondary | Tertiary | Back | Forward

  /** Key-event actions. */
  datatype KeyAction = KeyDown | KeyUp

  /** Modifier bits of a key event; a meta state is the set of bits that are
      on, so the empty set is the protocol's `None`. */
  datatype MetaFlag = ShiftOn | CtrlOn | AltOn | MetaOn

  /** The 91 device key codes the keyboard table can produce. */
  datatype AndroidKeyCode =
    | KeyA | KeyB | KeyC | KeyD | KeyE | KeyF | KeyG | KeyH | KeyI | KeyJ | KeyK | KeyL | KeyM
    | KeyN | KeyO | KeyP | KeyQ | KeyR | KeyS | KeyT | KeyU | KeyV | KeyW | KeyX | KeyY | KeyZ
    | Digit0 | Digit1 | Digit2 | Digit3 | Digit4 | Digit5 | Digit6 | Digit7 | Digit8 | Digit9
    | Enter | Backspace | Escape | ArrowUp | ArrowDown | ArrowLeft | ArrowRight | Space | Tab
    | Delete | Home | End | PageUp | PageDown | Comma | Period | Minus | Equal | BracketLeft
    | BracketRight | Backslash | Semicolon | Quote | Backquote | Slash | CapsLock
    | F1 | F2 | F3 | F4 | F5 | F6 | F7 | F8 | F9 | F10 | F11 | F12 | Insert
    | Numpad0 | Numpad1 | Numpad2 | Numpad3 | Numpad4 | Numpad5 | Numpad6 | Numpad7 | Numpad8
    | Numpad9 | NumpadMultiply | NumpadAdd | NumpadSubtract | NumpadDecimal | NumpadDivide
    | NumpadEnter

  datatype TouchMessage = TouchMessage(
    action: MotionAction,
    pointerId: int,
    pointerX: real,
    pointerY: real,
    videoWidth: nat,
    videoHeight: nat,
    pressure: real,
    actionButton: MotionButton,
    buttons: nat)

  datatype ScrollMessage = ScrollMessage(
    pointerX: real,
    pointerY: real,
    videoWidth: nat,
    videoHeight: nat,
    scrollX: int,
    scrollY: int,
    buttons: nat)

  datatype KeyCodeMessage = KeyCodeMessage(
    action: KeyAction,
    keyCode: AndroidKeyCode,
    repeat: nat,
    metaState: set<MetaFlag>)

  /** One write to the control channel. */
  datatype ControlMessage =
    | InjectTouch(touch: TouchMessage)
    | InjectScroll(scroll: ScrollMessage)
    | InjectKeyCode(key: KeyCodeMessage)
    | InjectText(text: string)

  /** What a handler did with one DOM event: whether it called
      `preventDefault` and `stopPropagation`, which pointer it captured, and
      the messages it wrote, in order. */
  datatype EventOutcome = EventOutcome(
    defaultPrevented: bool,
    propagationStopped: bool,
    capturedPointer: CapturedPointer,
    sent: seq<ControlMessage>)

  datatype CapturedPointer = NoCapture | Captured(pointerId: int)
}

=== FILE: device_connection.dfy ===
/** The device-connection hook: the application's connection state, the ADB
    client, the device record and the error text, driven by `connect`,
    `disconnect` and a watcher on the transport's closed-signal. Every state
    the hook sets is appended to `trace`, so the sequence of states an
    operation emits can be stated. */
module DeviceConnectionHook {
  import opened Types
  import opened AdbDevice

  class DeviceConnection {
    const manager: DeviceManager
    var state: ConnectionState
    var adb: Option<AdbClient>
    var deviceInfo: Option<DeviceInfo>
    var error: Option<string>
    /** The transport whose closed-signal the watcher awaits and has not
        cancelled. */
    var watching: Option<nat>
    /** Every state set so far, in order; the last is the current one. */
    ghost var trace: seq<ConnectionState>

    /** The hook's client is the manager's, and while there is one the
        watcher awaits the manager's current transport. */
    ghost predicate Valid()
      reads this, manager
    {
      && manager.Valid()
      && |trace| >= 1 && state == trace[|trace| - 1]
      && (adb.Some? ==> adb == manager.adb && watching == manager.Disconnected())
    }

    constructor(webUsbAvailable: bool)
      ensures Valid()
      ensures fresh(manager) && manager.supported == webUsbAvailable
      ensures state == Disconnected && trace == [Disconnected]
      ensures adb == None && deviceInfo == None && error == None && watching == None
    {
      manager := new DeviceManager(webUsbAvailable);
      state := Disconnected;
      trace := [Disconnected];
      adb := None;
      deviceInfo := None;
      error := None;
      watching := None;
    }

    /** `setConnectionState`. */
    method SetConnectionState(s: ConnectionState)
      requires Valid()
      modifies this
      ensures Valid()
      ensures state == s && trace == old(trace) + [s]
      ensures adb == old(adb) && deviceInfo == old(deviceInfo) && error == old(error)
      ensures watching == old(watching)
    {
      state := s;
      trace := trace + [s];
    }

    /** `setError`. */
    method SetError(message: Option<string>)
      requires Valid()
      modifies this
      ensures Valid()
      ensures error == message
      ensures state == old(state) && trace == old(trace) && adb == old(adb)
      ensures deviceInfo == old(deviceInfo) && watching == old(watching)
    {
      error := message;
    }

    /** `setAdb`, with the watcher effect that depends on it: when the value
        changes, the previous subscription is cancelled and a new one awaits
        the manager's current transport, if any. */
    method SetAdb(a: Option<AdbClient>)
      requires manager.Valid() && |trace| >= 1 && state == trace[|trace| - 1]
      requires a.Some? ==> a == manager.adb
      requires a.Some? && a == adb ==> watching == manager.Disconnected()
      modifies this
      ensures Valid()
      ensures adb == a
      ensures a != old(adb) ==> watching == manager.Disconnected()
      ensures a == old(adb) ==> watching == old(watching)
      ensures state == old(state) && trace == old(trace)
      ensures deviceInfo == old(deviceInfo) && error == old(error)
    {
      if a != adb {
        adb := a;
        watching := manager.Disconnected();
      }
    }

    /** The `catch` of `connect`. */
    method Fail(e: Thrown)
      requires Valid()
      modifies this
      ensures Valid()
      ensures error == Some(MessageOf(e, "Connection failed"))
      ensures trace == old(trace) + [Error] && adb == None
      ensures deviceInfo == old(deviceInfo)
    {
      SetError(Some(MessageOf(e, "Connection failed")));
      SetConnectionState(Error);
      SetAdb(None);
    }

    /** The part of `connect` after a device was picked: authenticate,
        publish the client, then read the device record, which falls back
        to the unknown record when any query fails. */
    method Authenticate(connection: Outcome, authenticated: Result<nat, Thrown>,
                        shell: seq<string> -> Result<string, Thrown>)
      requires Valid() && manager.device.Some?
      modifies this, manager
      ensures Valid()
      ensures connection.Threw? ==>
                && trace == old(trace) + [Authenticating, Error]
                && error == Some(MessageOf(connection.error, "Connection failed")) && adb == None
      ensures connection.Done? && authenticated.Failure? ==>
                && trace == old(trace) + [Authenticating, Error]
                && error == Some(MessageOf(authenticated.error, "Connection failed")) && adb == None
      ensures connection.Done? && authenticated.Success? ==>
                && trace == old(trace) + [Authenticating, Connected]
                && error == old(error)
                && adb == Some(AdbClient(authenticated.value))
                && watching == Some(authenticated.value)
                && deviceInfo == Some(if QueryDeviceInfo(shell).Success? then QueryDeviceInfo(shell).value
                                      else UnknownDeviceInfo)
    {
      SetConnectionState(Authenticating);
      var client := manager.Connect(connection, authenticated);
      if client.Failure? {
        Fail(client.error);
        return;
      }
      SetAdb(Some(client.value));
      SetConnectionState(Connected);
      var info := manager.GetDeviceInfo(shell);
      if info.Success? {
        deviceInfo := Some(info.value);
      } else {
        deviceInfo := Some(UnknownDeviceInfo);
      }
    }

    /** `connect`. The picker's outcome is `picked`; opening the USB
        connection and authenticating are `connection` and `authenticated`;
        the device's shell is `shell`. */
    method Connect(picked: Result<Option<UsbDevice>, Thrown>, connection: Outcome,
                   authenticated: Result<nat, Thrown>, shell: seq<string> -> Result<string, Thrown>)
      requires Valid()
      modifies this, manager
      ensures Valid()
      // without WebUSB: an error state and message, nothing else touched
      ensures !manager.supported ==>
                && trace == old(trace) + [Error]
                && error == Some("WebUSB is not supported in this browser.")
                && adb == old(adb) && deviceInfo == old(deviceInfo)
      // a failing picker: an error state with the thrown message, no client
      ensures manager.supported && picked.Failure? ==>
                && trace == old(trace) + [Connecting, Error]
                && error == Some(MessageOf(picked.error, "Connection failed")) && adb == None
      // a cancelled picker: back to disconnected, never an error
      ensures manager.supported && picked == Success(None) ==>
                && trace == old(trace) + [Connecting, Disconnected]
                && error == None && adb == old(adb)
      // a failing connection or authentication: an error state, no client
      ensures manager.supported && picked.Success? && picked.value.Some? && connection.Threw? ==>
                && trace == old(trace) + [Connecting, Authenticating, Error]
                && error == Some(MessageOf(connection.error, "Connection failed")) && adb == None
      ensures && manager.supported && picked.Success? && picked.value.Some? && connection.Done?
              && authenticated.Failure? ==>
                && trace == old(trace) + [Connecting, Authenticating, Error]
                && error == Some(MessageOf(authenticated.error, "Connection failed")) && adb == None
      // success: connected, with the device record or the unknown one
      ensures && manager.supported && picked.Success? && picked.value.Some? && connection.Done?
              && authenticated.Success? ==>
                && trace == old(trace) + [Connecting, Authenticating, Connected]
                && error == None
                && adb == Some(AdbClient(authenticated.value))
                && watching == Some(authenticated.value)
                && deviceInfo == Some(if QueryDeviceInfo(shell).Success? then QueryDeviceInfo(shell).value
                                      else UnknownDeviceInfo)
    {
      if !manager.supported {
        SetError(Some("WebUSB is not supported in this browser."));
        SetConnectionState(Error);
        return;
      }
      SetError(None);
      SetConnectionState(Connecting);
      ghost var started := trace;
      var device := manager.RequestDevice(picked);
      if device.Failure? {
        Fail(device.error);
        return;
      }
      if device.value.None? {
        SetConnectionState(Disconnected);
        return;
      }
      Authenticate(connection, authenticated, shell);
      assert started == old(trace) + [Connecting];
    }

    /** The states the watcher emits when the transport it awaits closes:
        one `Disconnected`, and a second one when clearing the client
        re-subscribes it to the closed transport. */
    static function ClosedTail(hadClient: bool): (tail: seq<ConnectionState>)
      ensures 1 <= |tail| <= 2 && forall i :: 0 <= i < |tail| ==> tail[i] == Disconnected
      ensures |tail| == 2 <==> hadClient
    {
      if hadClient then [Disconnected, Disconnected] else [Disconnected]
    }

    /** What the watcher emits while `disconnect` closes the client: nothing
        unless closing resolves the closed-signal before the watcher is
        cancelled (`watcherFires`) and the watcher awaits the transport
        being closed. */
    ghost function CloseEmits(watcherFires: bool): seq<ConnectionState>
      reads this, manager
    {
      if watcherFires && manager.transport.Some? && watching == Some(manager.transport.value.id)
      then ClosedTail(adb.Some?) else []
    }

    /** `disconnect`: the manager disconnects (ignoring `closed` if it is
        an error), then the client, the record and the error are cleared
        and the state becomes disconnected. Closing the client closes the
        transport the watcher awaits; when its closed-signal is delivered
        before the watcher is cancelled (`watcherFires`), the watcher's
        updates run first. */
    method Disconnect(closed: Outcome, watcherFires: bool)
      requires Valid()
      modifies this, manager
      ensures Valid()
      ensures trace == old(trace) + old(CloseEmits(watcherFires)) + [Disconnected]
      ensures |old(trace)| < |trace| <= |old(trace)| + 3
      ensures forall i :: |old(trace)| <= i < |trace| ==> trace[i] == Disconnected
      ensures adb == None && deviceInfo == None && error == None
      ensures manager.adb == None && manager.transport == None && manager.device == None
    {
      ghost var emits := CloseEmits(watcherFires);
      if watcherFires && manager.transport.Some? {
        TransportClosed(manager.transport.value.id);
      }
      assert trace == old(trace) + emits;
      manager.Disconnect(closed);
      SetAdb(None);
      deviceInfo := None;
      SetError(None);
      SetConnectionState(Disconnected);
    }

    /** Transport `tid` has closed. If the watcher awaits it (and has not
        been cancelled), the client and the record are cleared and the
        state becomes disconnected. Clearing the client re-runs the effect,
        which subscribes to the manager's transport again: that is the
        closed one, so the new subscription fires at once with the same
        updates, and the state is set a second time. */
    method TransportClosed(tid: nat)
      requires Valid()
      modifies this
      ensures Valid()
      ensures old(watching) != Some(tid) ==>
                && trace == old(trace) && adb == old(adb) && deviceInfo == old(deviceInfo)
                && watching == old(watching)
      ensures old(watching) == Some(tid) ==>
                && adb == None && deviceInfo == None && watching == None
                && trace == old(trace) + ClosedTail(old(adb).Some?)
      ensures error == old(error)
    {
      if watching != Some(tid) {
        return;
      }
      watching := None;
      var hadClient := adb.Some?;
      SetAdb(None);
      deviceInfo := None;
      SetConnectionState(Disconnected);
      if hadClient {
        // the re-subscription to the closed transport fires at once
        watching := None;
        SetAdb(None);
        deviceInfo := None;
        SetConnectionState(Disconnected);
      }
    }
  }
}

=== FILE: device_manager.dfy ===
/** The device manager: picks a USB device, opens an authenticated ADB
    transport to it, reads three system properties, and disconnects. The
    WebUSB picker, the USB connection, ADB authentication and the device's
    shell are oracles passed in by the caller. */
module AdbDevice {
  import opened Types

  /** A picked USB device. */
  datatype UsbDevice = UsbDevice(id: nat, serial: string)

  /** An authenticated transport to the device with `serial`. */
  datatype Transport = Transport(id: nat, serial: string)

  /** An ADB client over the transport `transportId`. */
  datatype AdbClient = AdbClient(transportId: nat)

  // ---- JavaScript `String.prototype.trim` ----

  /** The characters `trim` removes: the ECMAScript WhiteSpace and
      LineTerminator code points (tab, line feed, vertical tab, form feed,
      carriage return, space, no-break space, the Unicode space separators,
      the line and paragraph separators, and the byte order mark). All of
      them lie in the Basic Multilingual Plane, where a character is one
      UTF-16 code unit. */
  predicate IsJsWhitespace(c: char) {
    || ('\U{0009}' <= c <= '\U{000D}')
    || c == ' ' || c == '\U{00A0}' || c == '\U{1680}'
    || ('\U{2000}' <= c <= '\U{200A}')
    || c == '\U{2028}' || c == '\U{2029}' || c == '\U{202F}' || c == '\U{205F}' || c == '\U{3000}'
    || c == '\U{FEFF}'
  }

  /** How many whitespace characters `s` starts with. */
  function LeadingWhitespace(s: string): (n: nat)
    ensures n <= |s|
    ensures forall k :: 0 <= k < n ==> IsJsWhitespace(s[k])
    ensures n < |s| ==> !IsJsWhitespace(s[n])
  {
    if |s| == 0 || !IsJsWhitespace(s[0]) then 0
    else 1 + LeadingWhitespace(s[1..])
  }

  /** How many whitespace characters `s` ends with. */
  function TrailingWhitespace(s: string): (n: nat)
    ensures n <= |s|
    ensures forall k :: |s| - n <= k < |s| ==> IsJsWhitespace(s[k])
    ensures n < |s| ==> !IsJsWhitespace(s[|s| - n - 1])
  {
    if |s| == 0 || !IsJsWhitespace(s[|s| - 1]) then 0
    else 1 + TrailingWhitespace(s[..|s| - 1])
  }

  /** `s.trim()`: `s` without its leading and trailing whitespace. The
      result is a contiguous part of `s`, everything cut off is whitespace,
      and the result neither starts nor ends with whitespace. */
  function Trim(s: string): (r: string)
    ensures exists i, j :: 0 <= i <= j <= |s| && r == s[i..j]
                           && (forall k :: 0 <= k < i ==> IsJsWhitespace(s[k]))
                           && (forall k :: j <= k < |s| ==> IsJsWhitespace(s[k]))
    ensures r != [] ==> !IsJsWhitespace(r[0]) && !IsJsWhitespace(r[|r| - 1])
  {
    var i := LeadingWhitespace(s);
    var rest := s[i..];
    var m := TrailingWhitespace(rest);
    assert forall k :: |s| - m <= k < |s| ==> s[k] == rest[k - i];
    s[i..|s| - m]
  }

  /** Trimming twice is trimming once. */
  lemma {:induction false} TrimIdempotent(s: string)
    ensures Trim(Trim(s)) == Trim(s)
  {
    var r := Trim(s);
    if r != [] {
      assert LeadingWhitespace(r) == 0;
      assert TrailingWhitespace(r) == 0;
      assert r[0..|r|] == r;
    }
  }

  /** A string that neither starts nor ends with whitespace is unchanged,
      and one made only of whitespace trims to the empty string. */
  lemma {:induction false} TrimEdges(s: string)
    ensures s != [] && !IsJsWhitespace(s[0]) && !IsJsWhitespace(s[|s| - 1]) ==> Trim(s) == s
    ensures (forall k :: 0 <= k < |s| ==> IsJsWhitespace(s[k])) ==> Trim(s) == []
  {
    if s != [] && !IsJsWhitespace(s[0]) && !IsJsWhitespace(s[|s| - 1]) {
      assert LeadingWhitespace(s) == 0;
      assert s[0..] == s;
      assert TrailingWhitespace(s) == 0;
      assert s[0..|s|] == s;
    }
    if forall k :: 0 <= k < |s| ==> IsJsWhitespace(s[k]) {
      AllWhitespaceLeads(s);
    }
  }

  lemma {:induction false} AllWhitespaceLeads(s: string)
    requires forall k :: 0 <= k < |s| ==> IsJsWhitespace(s[k])
    ensures LeadingWhitespace(s) == |s|
  {
    if |s| > 0 {
      AllWhitespaceLeads(s[1..]);
    }
  }

  /** The shell commands `getDeviceInfo` runs, in order. */
  const ModelCommand: seq<string> := ["getprop", "ro.product.model"]
  const VersionCommand: seq<string> := ["getprop", "ro.build.version.release"]
  const SerialCommand: seq<string> := ["getprop", "ro.serialno"]

  /** The three queries of `getDeviceInfo`, run together: if any throws,
      the first failing one in command order is reported; otherwise the
      record holds each output trimmed, and no screen size. */
  function QueryDeviceInfo(shell: seq<string> -> Result<string, Thrown>): (r: Result<DeviceInfo, Thrown>)
    ensures shell(ModelCommand).Failure? ==> r == Failure(shell(ModelCommand).error)
    ensures shell(ModelCommand).Success? && shell(VersionCommand).Failure? ==>
              r == Failure(shell(VersionCommand).error)
    ensures r.Failure? <==>
              shell(ModelCommand).Failure? || shell(VersionCommand).Failure? || shell(SerialCommand).Failure?
    ensures r.Success? ==>
              && r.value.model == Trim(shell(ModelCommand).value)
              && r.value.androidVersion == Trim(shell(VersionCommand).value)
              && r.value.serial == Trim(shell(SerialCommand).value)
              && r.value.screenSize == None
  {
    var model, version, serial := shell(ModelCommand), shell(VersionCommand), shell(SerialCommand);
    if model.Failure? then Failure(model.error)
    else if version.Failure? then Failure(version.error)
    else if serial.Failure? then Failure(serial.error)
    else Success(DeviceInfo(Trim(model.value), Trim(version.value), Trim(serial.value), None))
  }

  /** `DeviceManager`. `supported` is whether the browser offers a WebUSB
      device manager; it never changes. */
  class DeviceManager {
    const supported: bool
    var device: Option<UsbDevice>
    var transport: Option<Transport>
    var adb: Option<AdbClient>

    /** An ADB client exists only over the current transport. */
    ghost predicate Valid()
      reads this
    {
      adb.Some? ==> transport.Some? && adb.value.transportId == transport.value.id
    }

    constructor(webUsbAvailable: bool)
      ensures Valid()
      ensures supported == webUsbAvailable
      ensures device == None && transport == None && adb == None
    {
      supported := webUsbAvailable;
      device := None;
      transport := None;
      adb := None;
    }

    predicate IsSupported()
    {
      supported
    }

    predicate Connected()
      reads this
    {
      adb.Some?
    }

    /** `disconnected`: the closed-signal of the current transport, named by
        the transport; none without a transport. While there is a client,
        it is the signal of the client's own transport. */
    function Disconnected(): (signal: Option<nat>)
      reads this
      ensures Valid() && adb.Some? ==> signal == Some(adb.value.transportId)
    {
      if transport.Some? then Some(transport.value.id) else None
    }

    /** `requestDevice`, with `picked` the picker's outcome: the chosen
        device, none when the user cancelled, or a thrown error. Without
        WebUSB it throws "WebUSB not supported". A returned choice, even an
        empty one, replaces the selected device. */
    method RequestDevice(picked: Result<Option<UsbDevice>, Thrown>) returns (r: Result<Option<UsbDevice>, Thrown>)
      requires Valid()
      modifies this
      ensures Valid()
      ensures !supported ==> r == Failure(ErrorObject("WebUSB not supported")) && device == old(device)
      ensures supported && picked.Failure? ==> r == picked && device == old(device)
      ensures supported && picked.Success? ==> r == picked && device == picked.value
      ensures transport == old(transport) && adb == old(adb)
    {
      if !supported {
        return Failure(ErrorObject("WebUSB not supported"));
      }
      if picked.Failure? {
        return picked;
      }
      device := picked.value;
      r := Success(device);
    }

    /** `connect`, with `connection` the outcome of opening the USB
        connection and `authenticated` the outcome of ADB authentication
        (the new transport's identity). Without a selected device it throws
        "No device selected"; a failure of either step is rethrown and
        changes nothing. */
    method Connect(connection: Outcome, authenticated: Result<nat, Thrown>) returns (r: Result<AdbClient, Thrown>)
      requires Valid()
      modifies this
      ensures Valid()
      ensures device == old(device)
      ensures old(device).None? ==> r == Failure(ErrorObject("No device selected"))
      ensures old(device).Some? && connection.Threw? ==> r == Failure(connection.error)
      ensures old(device).Some? && connection.Done? && authenticated.Failure? ==>
                r == Failure(authenticated.error)
      ensures r.Failure? ==> transport == old(transport) && adb == old(adb)
      ensures r.Success? <==> old(device).Some? && connection.Done? && authenticated.Success?
      ensures r.Success? ==>
                && transport == Some(Transport(authenticated.value, old(device).value.serial))
                && adb == Some(r.value) && r.value == AdbClient(authenticated.value)
                && Connected()
    {
      if device.None? {
        return Failure(ErrorObject("No device selected"));
      }
      if connection.Threw? {
        return Failure(connection.error);
      }
      if authenticated.Failure? {
        return Failure(authenticated.error);
      }
      transport := Some(Transport(authenticated.value, device.value.serial));
      adb := Some(AdbClient(transport.value.id));
      r := Success(adb.value);
    }

    /** `getDeviceInfo`, with `shell` giving each command's text output or
        the error it throws. Without ADB it throws "Not connected";
        otherwise the result is that of the three queries. */
    method GetDeviceInfo(shell: seq<string> -> Result<string, Thrown>) returns (r: Result<DeviceInfo, Thrown>)
      ensures adb.None? ==> r == Failure(ErrorObject("Not connected"))
      ensures adb.Some? ==> r == QueryDeviceInfo(shell)
    {
      if adb.None? {
        return Failure(ErrorObject("Not connected"));
      }
      r := QueryDeviceInfo(shell);
    }

    /** `disconnect`: closes ADB, ignoring `closed` if it is an error, and
        always forgets the client, the transport and the device. */
    method Disconnect(closed: Outcome)
      requires Valid()
      modifies this
      ensures Valid()
      ensures adb == None && transport == None && device == None
      ensures !Connected() && Disconnected() == None
    {
      adb := None;
      transport := None;
      device := None;
    }
  }
}

=== FILE: geometry.dfy ===
/** The letterbox geometry shared by pointer and wheel input: where the video
    actually appears inside its element under `object-fit: contain` (CSS
    Images Module Level 3, section 5.5, with the centred default
    `object-position` of section 5.6), and how a client point maps onto
    device pixels. Numbers are exact reals; the element is assumed to have
    positive width and height. */
module Geometry {

  /** An axis-aligned rectangle in client coordinates. */
  datatype Rect = Rect(x: real, y: real, width: real, height: real)

  function Min(a: real, b: real): real { if a <= b then a else b }
  function Max(a: real, b: real): real { if a >= b then a else b }

  /** `Math.max(0, Math.min(1, t))` */
  function Clamp01(t: real): (r: real)
    ensures 0.0 <= r <= 1.0
    ensures 0.0 <= t <= 1.0 ==> r == t
    ensures t <= 0.0 ==> r == 0.0
    ensures t >= 1.0 ==> r == 1.0
  {
    Max(0.0, Min(1.0, t))
  }

  predicate Positive(r: Rect) { r.width > 0.0 && r.height > 0.0 }

  /** The content rectangle of a video of `videoWidth` x `videoHeight` drawn
      with `object-fit: contain` inside an element whose bounding box is
      `element`. A zero dimension means the size is not known yet; the whole
      element is then used. */
  function RenderedVideoRect(element: Rect, videoWidth: nat, videoHeight: nat): (r: Rect)
    requires Positive(element)
    ensures videoWidth == 0 || videoHeight == 0 ==> r == element
    ensures Positive(r)
  {
    if videoWidth == 0 || videoHeight == 0 then
      element
    else
      var elementAspect := element.width / element.height;
      var videoAspect := videoWidth as real / videoHeight as real;
      var renderWidth :=
        if videoAspect > elementAspect then element.width else element.height * videoAspect;
      var renderHeight :=
        if videoAspect > elementAspect then element.width / videoAspect else element.height;
      Rect(element.x + (element.width - renderWidth) / 2.0,
           element.y + (element.height - renderHeight) / 2.0,
           renderWidth, renderHeight)
  }

  /** Contained: the rendered rectangle lies inside the element and spans it
      fully along at least one axis. */
  lemma {:induction false} RenderedRectFits(element: Rect, videoWidth: nat, videoHeight: nat)
    requires Positive(element) && videoWidth > 0 && videoHeight > 0
    ensures var r := RenderedVideoRect(element, videoWidth, videoHeight);
      && 0.0 < r.width <= element.width
      && 0.0 < r.height <= element.height
      && (r.width == element.width || r.height == element.height)
      && element.x <= r.x && r.x + r.width <= element.x + element.width
      && element.y <= r.y && r.y + r.height <= element.y + element.height
  {
    var w, h := element.width, element.height;
    var vw, vh := videoWidth as real, videoHeight as real;
    var ea, va := w / h, vw / vh;
    if va > ea {
      // the height shrinks: w / va < w / ea == h
      DivLess(w, ea, va);
      assert w / ea == h;
    } else {
      // the width shrinks: h * va <= h * ea == w
      assert h * va <= h * ea by { MulMonotone(h, va, ea); }
      assert h * ea == w;
    }
  }

  /** Aspect preserving: rendered width / height == videoWidth / videoHeight. */
  lemma {:induction false} RenderedRectKeepsAspect(element: Rect, videoWidth: nat, videoHeight: nat)
    requires Positive(element) && videoWidth > 0 && videoHeight > 0
    ensures var r := RenderedVideoRect(element, videoWidth, videoHeight);
      r.width / r.height == videoWidth as real / videoHeight as real
  {
    var w, h := element.width, element.height;
    var va := videoWidth as real / videoHeight as real;
    if va > w / h {
      assert w / (w / va) == va;
    } else {
      assert (h * va) / h == va;
    }
  }

  /** Centred: the margins on opposite sides are equal and never negative. */
  lemma {:induction false} RenderedRectCentred(element: Rect, videoWidth: nat, videoHeight: nat)
    requires Positive(element)
    ensures var r := RenderedVideoRect(element, videoWidth, videoHeight);
      && r.x - element.x == (element.x + element.width) - (r.x + r.width)
      && r.y - element.y == (element.y + element.height) - (r.y + r.height)
      && r.x - element.x >= 0.0 && r.y - element.y >= 0.0
  {
    if videoWidth > 0 && videoHeight > 0 {
      RenderedRectFits(element, videoWidth, videoHeight);
    }
  }

  /** A portrait 1080x2400 video inside an 800x450 element at the origin is
      pillarboxed to 202.5x450, starting at x = 298.75. */
  lemma PortraitInLandscapeExample()
    ensures RenderedVideoRect(Rect(0.0, 0.0, 800.0, 450.0), 1080, 2400)
         == Rect(298.75, 0.0, 202.5, 450.0)
  {
    var va := 1080.0 / 2400.0;
    assert va == 0.45;
    assert !(va > 800.0 / 450.0);
    assert 450.0 * va == 202.5;
  }

  /** How far across `[origin, origin + size]` the coordinate `c` lies, as
      a fraction clamped to [0, 1]. */
  function Fraction(c: real, origin: real, size: real): (f: real)
    requires size > 0.0
    ensures 0.0 <= f <= 1.0
  {
    Clamp01((c - origin) / size)
  }

  /** `t * v` for a fraction `t` of a non-negative size `v`. */
  function Scale(t: real, v: real): (r: real)
    requires 0.0 <= t <= 1.0 && v >= 0.0
    ensures 0.0 <= r <= v
  {
    ScaleBounded(t, v);
    t * v
  }

  /** `mapClientToVideo`: the fraction of the way across `rect`, clamped to
      [0, 1] on each axis, scaled to the video size. */
  function MapClientToVideo(clientX: real, clientY: real, rect: Rect,
                            videoWidth: nat, videoHeight: nat): (p: (real, real))
    requires Positive(rect)
    ensures 0.0 <= p.0 <= videoWidth as real
    ensures 0.0 <= p.1 <= videoHeight as real
  {
    (Scale(Fraction(clientX, rect.x, rect.width), videoWidth as real),
     Scale(Fraction(clientY, rect.y, rect.height), videoHeight as real))
  }

  /** Points at or before the rectangle's origin map to 0; points at or past
      its far edge map to the full video size. */
  lemma {:induction false} MapClampsAtEdges(clientX: real, clientY: real, rect: Rect,
                                            videoWidth: nat, videoHeight: nat)
    requires Positive(rect)
    ensures var p := MapClientToVideo(clientX, clientY, rect, videoWidth, videoHeight);
      && (clientX <= rect.x ==> p.0 == 0.0)
      && (clientX >= rect.x + rect.width ==> p.0 == videoWidth as real)
      && (clientY <= rect.y ==> p.1 == 0.0)
      && (clientY >= rect.y + rect.height ==> p.1 == videoHeight as real)
  {
    FractionEdges(clientX, rect.x, rect.width);
    FractionEdges(clientY, rect.y, rect.height);
  }

  /** Inside the rectangle the map is exactly linear. */
  lemma {:induction false} MapLinearInside(clientX: real, clientY: real, rect: Rect,
                                           videoWidth: nat, videoHeight: nat)
    requires Positive(rect)
    requires rect.x <= clientX <= rect.x + rect.width
    requires rect.y <= clientY <= rect.y + rect.height
    ensures var p := MapClientToVideo(clientX, clientY, rect, videoWidth, videoHeight);
      && p.0 == (clientX - rect.x) / rect.width * videoWidth as real
      && p.1 == (clientY - rect.y) / rect.height * videoHeight as real
  {
    FractionInside(clientX, rect.x, rect.width);
    FractionInside(clientY, rect.y, rect.height);
  }

  /** The map never moves backwards: it is non-decreasing on each axis. */
  lemma {:induction false} MapMonotone(x1: real, y1: real, x2: real, y2: real, rect: Rect,
                                       videoWidth: nat, videoHeight: nat)
    requires Positive(rect) && x1 <= x2 && y1 <= y2
    ensures var p := MapClientToVideo(x1, y1, rect, videoWidth, videoHeight);
      var q := MapClientToVideo(x2, y2, rect, videoWidth, videoHeight);
      p.0 <= q.0 && p.1 <= q.1
  {
    AxisMonotone(x1, x2, rect.x, rect.width, videoWidth as real);
    AxisMonotone(y1, y2, rect.y, rect.height, videoHeight as real);
  }

  /** An event at the horizontal centre of the element lands at the middle
      of the device's x range, whatever the letterboxing. */
  lemma {:induction false} CentreMapsToHalf(element: Rect, clientY: real, videoWidth: nat, videoHeight: nat)
    requires Positive(element)
    ensures var r := RenderedVideoRect(element, videoWidth, videoHeight);
      MapClientToVideo(element.x + element.width / 2.0, clientY, r, videoWidth, videoHeight).0
        == videoWidth as real / 2.0
  {
    var r := RenderedVideoRect(element, videoWidth, videoHeight);
    RenderedRectCentred(element, videoWidth, videoHeight);
    var cx := element.x + element.width / 2.0;
    assert cx - r.x == r.width / 2.0;
    assert (cx - r.x) / r.width == 0.5;
  }

  // ---- arithmetic helpers ----

  lemma DivLess(w: real, a: real, b: real)
    requires w > 0.0 && 0.0 < a < b
    ensures w / b < w / a
  {
    assert w / b * b == w == w / a * a;
  }

  lemma MulMonotone(h: real, a: real, b: real)
    requires h > 0.0 && a <= b
    ensures h * a <= h * b
  {
  }

  lemma ScaleBounded(t: real, v: real)
    requires 0.0 <= t <= 1.0 && v >= 0.0
    ensures 0.0 <= t * v <= v
  {
  }

  lemma FractionEdges(c: real, origin: real, size: real)
    requires size > 0.0
    ensures c <= origin ==> Fraction(c, origin, size) == 0.0
    ensures c >= origin + size ==> Fraction(c, origin, size) == 1.0
  {
    if c <= origin {
      assert (c - origin) / size <= 0.0;
    }
    if c >= origin + size {
      var f := (c - origin) / size;
      assert f * size == c - origin;
    }
  }

  lemma FractionInside(c: real, origin: real, size: real)
    requires size > 0.0 && origin <= c <= origin + size
    ensures Fraction(c, origin, size) == (c - origin) / size
  {
    assert 0.0 <= (c - origin) / size <= size / size;
  }

  lemma AxisMonotone(c1: real, c2: real, origin: real, size: real, scale: real)
    requires size > 0.0 && c1 <= c2 && scale >= 0.0
    ensures Scale(Fraction(c1, origin, size), scale) <= Scale(Fraction(c2, origin, size), scale)
  {
    var t1, t2 := (c1 - origin) / size, (c2 - origin) / size;
    assert t1 <= t2;
    assert Fraction(c1, origin, size) <= Fraction(c2, origin, size);
    ScaleMonotone(Fraction(c1, origin, size), Fraction(c2, origin, size), scale);
  }

  lemma ScaleMonotone(t1: real, t2: real, v: real)
    requires 0.0 <= t1 <= t2 <= 1.0 && v >= 0.0
    ensures Scale(t1, v) <= Scale(t2, v)
  {
  }
}

=== FILE: input_manager.dfy ===
/** The input manager: wires the three input handlers and a context-menu
    blocker to one element (and the keyboard handler to the document), and
    unwires them again. The DOM's listener lists are modelled as one
    registry of (target, event type, handler) triples with the DOM's own
    rules: adding a triple that is already present does nothing, removing
    one drops it. */
module InputManagement {
  import opened Types
  import opened ControlMessages

  /** Where a listener hangs: an element (by identity) or the document. */
  datatype Target = Element(id: nat) | Document

  /** A listener function, by identity. The manager creates fresh handler
      closures on every attach; `gen` tells those generations apart. The
      context-menu blocker is one per manager and never changes. Listeners
      that other code registered are `Foreign`. */
  datatype Handler =
    | TouchFn(gen: nat)
    | ScrollFn(gen: nat)
    | KeyFn(gen: nat)
    | ContextMenuFn
    | Foreign(id: nat)

  /** The DOM event types the manager listens for. */
  datatype EventType =
    | PointerDownEvent | PointerMoveEvent | PointerUpEvent | PointerCancelEvent
    | WheelScrollEvent | ContextMenuEvent | KeyDownEvent | KeyUpEvent

  datatype Listener = Listener(target: Target, eventType: EventType, handler: Handler)

  /** The listeners a manager owns, as a set. */
  function Owned(s: set<Listener>): set<Listener> {
    set l | l in s && !l.handler.Foreign?
  }

  /** The listeners registered by other code. */
  function Others(s: set<Listener>): set<Listener> {
    set l | l in s && l.handler.Foreign?
  }

  /** The eight registrations one `attach(el)` makes with the handlers of
      generation `g`. */
  function Expected(el: nat, g: nat): set<Listener> {
    { Listener(Element(el), PointerDownEvent, TouchFn(g)),
      Listener(Element(el), PointerMoveEvent, TouchFn(g)),
      Listener(Element(el), PointerUpEvent, TouchFn(g)),
      Listener(Element(el), PointerCancelEvent, TouchFn(g)),
      Listener(Element(el), WheelScrollEvent, ScrollFn(g)),
      Listener(Element(el), ContextMenuEvent, ContextMenuFn),
      Listener(Document, KeyDownEvent, KeyFn(g)),
      Listener(Document, KeyUpEvent, KeyFn(g)) }
  }

  /** Adding the eight registrations one by one adds `Expected(el, g)`. */
  lemma RegistrationsAddUp(s: set<Listener>, el: nat, g: nat)
    ensures s + {Listener(Element(el), PointerDownEvent, TouchFn(g))}
              + {Listener(Element(el), PointerMoveEvent, TouchFn(g))}
              + {Listener(Element(el), PointerUpEvent, TouchFn(g))}
              + {Listener(Element(el), PointerCancelEvent, TouchFn(g))}
              + {Listener(Element(el), WheelScrollEvent, ScrollFn(g))}
              + {Listener(Element(el), ContextMenuEvent, ContextMenuFn)}
              + {Listener(Document, KeyDownEvent, KeyFn(g))}
              + {Listener(Document, KeyUpEvent, KeyFn(g))}
            == s + Expected(el, g)
  {
  }

  lemma ExpectedAllOwned(el: nat, g: nat)
    ensures forall l :: l in Expected(el, g) ==> !l.handler.Foreign?
  {
  }

  lemma OwnedUnion(a: set<Listener>, e: set<Listener>)
    requires Owned(a) == {}
    requires forall l :: l in e ==> !l.handler.Foreign?
    ensures Owned(a + e) == e && Others(a + e) == Others(a)
  {
    forall l | l in a ensures l.handler.Foreign? {
      assert l !in Owned(a);
    }
  }

  /** Where and for what each registration listens, forgetting which
      generation of handler it calls. */
  function Shape(ls: set<Listener>): set<(Target, EventType)> {
    set l | l in ls :: (l.target, l.eventType)
  }

  /** Where and for what an attached manager listens. */
  function Wiring(el: nat): set<(Target, EventType)> {
    { (Element(el), PointerDownEvent), (Element(el), PointerMoveEvent),
      (Element(el), PointerUpEvent), (Element(el), PointerCancelEvent),
      (Element(el), WheelScrollEvent), (Element(el), ContextMenuEvent),
      (Document, KeyDownEvent), (Document, KeyUpEvent) }
  }

  /** The eight registrations are pairwise different, so an attached
      manager holds eight listeners. */
  lemma {:induction false} ExpectedSize(el: nat, g: nat)
    ensures |Expected(el, g)| == 8
  {
    var e := Element(el);
    var s2 := { Listener(e, PointerDownEvent, TouchFn(g)), Listener(e, PointerMoveEvent, TouchFn(g)) };
    var s4 := s2 + { Listener(e, PointerUpEvent, TouchFn(g)), Listener(e, PointerCancelEvent, TouchFn(g)) };
    var s6 := s4 + { Listener(e, WheelScrollEvent, ScrollFn(g)), Listener(e, ContextMenuEvent, ContextMenuFn) };
    var s8 := s6 + { Listener(Document, KeyDownEvent, KeyFn(g)), Listener(Document, KeyUpEvent, KeyFn(g)) };
    assert |s2| == 2;
    assert |s4| == 4;
    assert |s6| == 6;
    assert |s8| == 8;
    assert Expected(el, g) == s8;
  }

  /** Each registration listens at one place of the wiring, and every place
      of the wiring has a registration, whatever the generation: re-attaching
      gives the same wiring. */
  lemma {:induction false} ExpectedShape(el: nat, g: nat)
    ensures Shape(Expected(el, g)) == Wiring(el)
  {
    forall p | p in Wiring(el) ensures p in Shape(Expected(el, g)) {
      var l := if p.1 == WheelScrollEvent then Listener(p.0, p.1, ScrollFn(g))
               else if p.1 == ContextMenuEvent then Listener(p.0, p.1, ContextMenuFn)
               else if p.0 == Document then Listener(p.0, p.1, KeyFn(g))
               else Listener(p.0, p.1, TouchFn(g));
      assert l in Expected(el, g);
    }
  }

  /** The part of the DOM the manager touches: the listener registrations
      (a set, since the DOM never holds the same registration twice), the
      tab index of elements and which element has focus. */
  class Dom {
    var listeners: set<Listener>
    var tabIndex: map<nat, int>
    var focused: Option<nat>

    constructor(initial: set<Listener>)
      ensures listeners == initial && tabIndex == map[] && focused == None
    {
      listeners := initial;
      tabIndex := map[];
      focused := None;
    }

    /** `addEventListener`: a registration that is already present is not
        added again. */
    method AddEventListener(target: Target, eventType: EventType, handler: Handler)
      modifies this
      ensures listeners == old(listeners) + {Listener(target, eventType, handler)}
      ensures tabIndex == old(tabIndex) && focused == old(focused)
    {
      listeners := listeners + {Listener(target, eventType, handler)};
    }

    /** `removeEventListener`: drops the registration if present. */
    method RemoveEventListener(target: Target, eventType: EventType, handler: Handler)
      modifies this
      ensures listeners == old(listeners) - {Listener(target, eventType, handler)}
      ensures tabIndex == old(tabIndex) && focused == old(focused)
    {
      listeners := listeners - {Listener(target, eventType, handler)};
    }

    /** `element.tabIndex = 0; element.focus()`. */
    method MakeFocusable(el: nat)
      modifies this
      ensures tabIndex == old(tabIndex)[el := 0] && focused == Some(el)
      ensures listeners == old(listeners)
    {
      tabIndex := tabIndex[el := 0];
      focused := Some(el);
    }
  }

  /** `InputManager`: at most one element attached at a time. */
  class InputManager {
    var element: Option<nat>
    var touchHandler: Option<Handler>
    var keyHandler: Option<Handler>
    var scrollHandler: Option<Handler>
    /** The generation the next attach gives its fresh handlers. */
    var nextGen: nat

    /** The manager's fields and the registry agree: detached, it owns no
        registration; attached to `el` with handlers of generation `g`, it
        owns exactly the eight registrations of `Expected(el, g)`. */
    predicate Consistent(dom: Dom)
      reads this, dom
    {
      && (element.None? ==>
            && touchHandler.None? && keyHandler.None? && scrollHandler.None?
            && Owned(dom.listeners) == {})
      && (element.Some? ==>
            && touchHandler.Some? && touchHandler.value.TouchFn?
            && var g := touchHandler.value.gen;
               && g < nextGen
               && keyHandler == Some(KeyFn(g))
               && scrollHandler == Some(ScrollFn(g))
               && Owned(dom.listeners) == Expected(element.value, g))
    }

    constructor(dom: Dom)
      requires Owned(dom.listeners) == {}
      ensures Consistent(dom)
      ensures element == None && nextGen == 0
    {
      element := None;
      touchHandler := None;
      keyHandler := None;
      scrollHandler := None;
      nextGen := 0;
    }

    /** `detach`: removes each registration the fields say exists and
        clears the element and all three handlers. */
    method Detach(dom: Dom)
      requires Consistent(dom)
      modifies this, dom
      ensures Consistent(dom)
      ensures element == None && touchHandler == None && keyHandler == None && scrollHandler == None
      ensures nextGen == old(nextGen)
      ensures Owned(dom.listeners) == {}
      ensures Others(dom.listeners) == Others(old(dom.listeners))
      ensures dom.tabIndex == old(dom.tabIndex) && dom.focused == old(dom.focused)
      // with nothing attached, nothing changes
      ensures old(element).None? ==> dom.listeners == old(dom.listeners)
    {
      ghost var before := dom.listeners;
      if element.Some? && touchHandler.Some? {
        dom.RemoveEventListener(Element(element.value), PointerDownEvent, touchHandler.value);
        dom.RemoveEventListener(Element(element.value), PointerMoveEvent, touchHandler.value);
        dom.RemoveEventListener(Element(element.value), PointerUpEvent, touchHandler.value);
        dom.RemoveEventListener(Element(element.value), PointerCancelEvent, touchHandler.value);
      }
      if element.Some? && scrollHandler.Some? {
        dom.RemoveEventListener(Element(element.value), WheelScrollEvent, scrollHandler.value);
      }
      if element.Some? {
        dom.RemoveEventListener(Element(element.value), ContextMenuEvent, ContextMenuFn);
      }
      if keyHandler.Some? {
        dom.RemoveEventListener(Document, KeyDownEvent, keyHandler.value);
        dom.RemoveEventListener(Document, KeyUpEvent, keyHandler.value);
      }
      if element.Some? {
        ghost var g := touchHandler.value.gen;
        assert dom.listeners == before - Expected(element.value, g);
        assert Owned(dom.listeners) == {};
        assert Others(dom.listeners) == Others(before);
      }
      element := None;
      touchHandler := None;
      keyHandler := None;
      scrollHandler := None;
    }

    /** `attach(el)`: detaches first, then registers fresh handlers (four
        pointer types, wheel and context menu on the element, key down and
        up on the document) and makes the element focusable and focused. */
    method Attach(dom: Dom, el: nat)
      requires Consistent(dom)
      modifies this, dom
      ensures Consistent(dom)
      ensures element == Some(el) && nextGen == old(nextGen) + 1
      ensures touchHandler == Some(TouchFn(old(nextGen)))
      ensures keyHandler == Some(KeyFn(old(nextGen)))
      ensures scrollHandler == Some(ScrollFn(old(nextGen)))
      // nothing from a previous attach survives; exactly the eight new ones
      ensures Owned(dom.listeners) == Expected(el, old(nextGen))
      ensures Others(dom.listeners) == Others(old(dom.listeners))
      ensures dom.tabIndex == old(dom.tabIndex)[el := 0] && dom.focused == Some(el)
    {
      Detach(dom);
      ghost var cleared := dom.listeners;
      element := Some(el);
      var g := nextGen;
      nextGen := nextGen + 1;
      touchHandler := Some(TouchFn(g));
      keyHandler := Some(KeyFn(g));
      scrollHandler := Some(ScrollFn(g));

      dom.AddEventListener(Element(el), PointerDownEvent, TouchFn(g));
      dom.AddEventListener(Element(el), PointerMoveEvent, TouchFn(g));
      dom.AddEventListener(Element(el), PointerUpEvent, TouchFn(g));
      dom.AddEventListener(Element(el), PointerCancelEvent, TouchFn(g));
      dom.AddEventListener(Element(el), WheelScrollEvent, ScrollFn(g));
      dom.AddEventListener(Element(el), ContextMenuEvent, ContextMenuFn);
      dom.AddEventListener(Document, KeyDownEvent, KeyFn(g));
      dom.AddEventListener(Document, KeyUpEvent, KeyFn(g));
      dom.MakeFocusable(el);

      RegistrationsAddUp(cleared, el, g);
      ExpectedAllOwned(el, g);
      OwnedUnion(cleared, Expected(el, g));
    }

    /** `preventContextMenu`: the browser menu is suppressed; nothing else
        happens to the event and nothing is sent. */
    method PreventContextMenu() returns (out: EventOutcome)
      ensures out.defaultPrevented && !out.propagationStopped
      ensures out.capturedPointer == NoCapture && out.sent == []
    {
      out := EventOutcome(true, false, NoCapture, []);
    }
  }

  /** Attaching twice in a row to the same element leaves the same wiring
      as attaching once: eight registrations over the same element and
      event types, none of them left over from the first attach. */
  method AttachTwice(dom: Dom, el: nat) returns (m: InputManager)
    requires Owned(dom.listeners) == {}
    modifies dom
    ensures |Owned(dom.listeners)| == 8
    ensures Shape(Owned(dom.listeners)) == Wiring(el)
    ensures Others(dom.listeners) == Others(old(dom.listeners))
    ensures forall l :: l in Owned(dom.listeners) ==> !(l.handler in {TouchFn(0), KeyFn(0), ScrollFn(0)})
  {
    m := new InputManager(dom);
    m.Attach(dom, el);
    m.Attach(dom, el);
    ExpectedSize(el, 1);
    ExpectedShape(el, 1);
  }
}

=== FILE: keyboard_handler.dfy ===
/** Keyboard input: a fixed table from physical key codes to device key
    codes, a deny-list of browser shortcuts that are left to the browser, the
    modifier bitmask, and a text fallback for unmapped printable keys.
    Strings are sequences of Unicode scalar values; the DOM's `key.length`
    counts UTF-16 code units, which `Utf16Length` computes. */
module KeyboardHandler {
  import opened ControlMessages

  /** The fields of a DOM `KeyboardEvent` the handler reads. */
  datatype KeyboardEvent = KeyboardEvent(
    eventType: string,
    code: string,
    key: string,
    repeat: bool,
    shiftKey: bool,
    ctrlKey: bool,
    altKey: bool,
    metaKey: bool)

  /** KEY_MAP entries: letters A to M. */
  const Letters1: map<string, AndroidKeyCode> := map[
    "KeyA" := KeyA, "KeyB" := KeyB, "KeyC" := KeyC, "KeyD" := KeyD,
    "KeyE" := KeyE, "KeyF" := KeyF, "KeyG" := KeyG, "KeyH" := KeyH,
    "KeyI" := KeyI, "KeyJ" := KeyJ, "KeyK" := KeyK, "KeyL" := KeyL,
    "KeyM" := KeyM]

  /** KEY_MAP entries: letters N to Z. */
  const Letters2: map<string, AndroidKeyCode> := map[
    "KeyN" := KeyN, "KeyO" := KeyO, "KeyP" := KeyP, "KeyQ" := KeyQ,
    "KeyR" := KeyR, "KeyS" := KeyS, "KeyT" := KeyT, "KeyU" := KeyU,
    "KeyV" := KeyV, "KeyW" := KeyW, "KeyX" := KeyX, "KeyY" := KeyY,
    "KeyZ" := KeyZ]

  /** KEY_MAP entries: the digit row. */
  const Digits: map<string, AndroidKeyCode> := map[
    "Digit0" := Digit0, "Digit1" := Digit1, "Digit2" := Digit2, "Digit3" := Digit3,
    "Digit4" := Digit4, "Digit5" := Digit5, "Digit6" := Digit6, "Digit7" := Digit7,
    "Digit8" := Digit8, "Digit9" := Digit9]

  /** KEY_MAP entries: editing and navigation keys. */
  const Navigation: map<string, AndroidKeyCode> := map[
    "Enter" := Enter, "Backspace" := Backspace, "Escape" := Escape, "ArrowUp" := ArrowUp,
    "ArrowDown" := ArrowDown, "ArrowLeft" := ArrowLeft, "ArrowRight" := ArrowRight, "Space" := Space,
    "Tab" := Tab, "Delete" := Delete, "Home" := Home, "End" := End,
    "PageUp" := PageUp]

  /** KEY_MAP entries: more navigation, punctuation and Caps Lock. */
  const Punctuation: map<string, AndroidKeyCode> := map[
    "PageDown" := PageDown, "Comma" := Comma, "Period" := Period, "Minus" := Minus,
    "Equal" := Equal, "BracketLeft" := BracketLeft, "BracketRight" := BracketRight, "Backslash" := Backslash,
    "Semicolon" := Semicolon, "Quote" := Quote, "Backquote" := Backquote, "Slash" := Slash,
    "CapsLock" := CapsLock]

  /** KEY_MAP entries: F1 to F12 and Insert. */
  const FunctionKeys: map<string, AndroidKeyCode> := map[
    "F1" := F1, "F2" := F2, "F3" := F3, "F4" := F4,
    "F5" := F5, "F6" := F6, "F7" := F7, "F8" := F8,
    "F9" := F9, "F10" := F10, "F11" := F11, "F12" := F12,
    "Insert" := Insert]

  /** KEY_MAP entries: numpad digits. */
  const NumpadDigits: map<string, AndroidKeyCode> := map[
    "Numpad0" := Numpad0, "Numpad1" := Numpad1, "Numpad2" := Numpad2, "Numpad3" := Numpad3,
    "Numpad4" := Numpad4, "Numpad5" := Numpad5, "Numpad6" := Numpad6, "Numpad7" := Numpad7,
    "Numpad8" := Numpad8, "Numpad9" := Numpad9]

  /** KEY_MAP entries: numpad operators and Enter. */
  const NumpadOperators: map<string, AndroidKeyCode> := map[
    "NumpadMultiply" := NumpadMultiply, "NumpadAdd" := NumpadAdd, "NumpadSubtract" := NumpadSubtract, "NumpadDecimal" := NumpadDecimal,
    "NumpadDivide" := NumpadDivide, "NumpadEnter" := NumpadEnter]

  /** `KEY_MAP`: physical key code (`KeyboardEvent.code`) to device key code. */
  const KeyMap: map<string, AndroidKeyCode> :=
    Letters1 + Letters2 + Digits + Navigation
    + Punctuation + FunctionKeys + NumpadDigits + NumpadOperators

  // Sizes of the chunks, and each chunk shares no code with the ones before it.
  lemma Letters1Size() ensures |Letters1| == 13 { }
  lemma Letters2Size() ensures |Letters2| == 13 { }
  lemma DigitsSize() ensures |Digits| == 10 { }
  lemma NavigationSize() ensures |Navigation| == 13 { }
  lemma PunctuationSize() ensures |Punctuation| == 13 { }
  lemma FunctionKeysSize() ensures |FunctionKeys| == 13 { }
  lemma NumpadDigitsSize() ensures |NumpadDigits| == 10 { }
  lemma NumpadOperatorsSize() ensures |NumpadOperators| == 6 { }

  lemma Letters1ApartLetters2() ensures Letters1.Keys !! Letters2.Keys { }
  lemma Letters1ApartDigits() ensures Letters1.Keys !! Digits.Keys { }
  lemma Letters2ApartDigits() ensures Letters2.Keys !! Digits.Keys { }
  lemma Letters1ApartNavigation() ensures Letters1.Keys !! Navigation.Keys { }
  lemma Letters2ApartNavigation() ensures Letters2.Keys !! Navigation.Keys { }
  lemma DigitsApartNavigation() ensures Digits.Keys !! Navigation.Keys { }
  lemma Letters1ApartPunctuation() ensures Letters1.Keys !! Punctuation.Keys { }
  lemma Letters2ApartPunctuation() ensures Letters2.Keys !! Punctuation.Keys { }
  lemma DigitsApartPunctuation() ensures Digits.Keys !! Punctuation.Keys { }
  lemma NavigationApartPunctuation() ensures Navigation.Keys !! Punctuation.Keys { }
  lemma Letters1ApartFunctionKeys() ensures Letters1.Keys !! FunctionKeys.Keys { }
  lemma Letters2ApartFunctionKeys() ensures Letters2.Keys !! FunctionKeys.Keys { }
  lemma DigitsApartFunctionKeys() ensures Digits.Keys !! FunctionKeys.Keys { }
  lemma NavigationApartFunctionKeys() ensures Navigation.Keys !! FunctionKeys.Keys { }
  lemma PunctuationApartFunctionKeys() ensures Punctuation.Keys !! FunctionKeys.Keys { }
  lemma Letters1ApartNumpadDigits() ensures Letters1.Keys !! NumpadDigits.Keys { }
  lemma Letters2ApartNumpadDigits() ensures Letters2.Keys !! NumpadDigits.Keys { }
  lemma DigitsApartNumpadDigits() ensures Digits.Keys !! NumpadDigits.Keys { }
  lemma NavigationApartNumpadDigits() ensures Navigation.Keys !! NumpadDigits.Keys { }
  lemma PunctuationApartNumpadDigits() ensures Punctuation.Keys !! NumpadDigits.Keys { }
  lemma FunctionKeysApartNumpadDigits() ensures FunctionKeys.Keys !! NumpadDigits.Keys { }
  lemma Letters1ApartNumpadOperators() ensures Letters1.Keys !! NumpadOperators.Keys { }
  lemma Letters2ApartNumpadOperators() ensures Letters2.Keys !! NumpadOperators.Keys { }
  lemma DigitsApartNumpadOperators() ensures Digits.Keys !! NumpadOperators.Keys { }
  lemma NavigationApartNumpadOperators() ensures Navigation.Keys !! NumpadOperators.Keys { }
  lemma PunctuationApartNumpadOperators() ensures Punctuation.Keys !! NumpadOperators.Keys { }
  lemma FunctionKeysApartNumpadOperators() ensures FunctionKeys.Keys !! NumpadOperators.Keys { }
  lemma NumpadDigitsApartNumpadOperators() ensures NumpadDigits.Keys !! NumpadOperators.Keys { }

  lemma Letters2Fresh()
    ensures (Letters1).Keys !! Letters2.Keys
  {
    Letters1ApartLetters2();
  }

  lemma DigitsFresh()
    ensures (Letters1 + Letters2).Keys !! Digits.Keys
  {
    Letters1ApartDigits();
    Letters2ApartDigits();
    DisjointMerge(Letters1, Letters2, Digits);
  }

  lemma NavigationFresh()
    ensures (Letters1 + Letters2 + Digits).Keys !! Navigation.Keys
  {
    Letters1ApartNavigation();
    Letters2ApartNavigation();
    DigitsApartNavigation();
    DisjointMerge(Letters1, Letters2, Navigation);
    DisjointMerge(Letters1 + Letters2, Digits, Navigation);
  }

  lemma PunctuationFresh()
    ensures (Letters1 + Letters2 + Digits + Navigation).Keys !! Punctuation.Keys
  {
    Letters1ApartPunctuation();
    Letters2ApartPunctuation();
    DigitsApartPunctuation();
    NavigationApartPunctuation();
    DisjointMerge(Letters1, Letters2, Punctuation);
    DisjointMerge(Letters1 + Letters2, Digits, Punctuation);
    DisjointMerge(Letters1 + Letters2 + Digits, Navigation, Punctuation);
  }

  lemma FunctionKeysFresh()
    ensures (Letters1 + Letters2 + Digits + Navigation + Punctuation).Keys !! FunctionKeys.Keys
  {
    Letters1ApartFunctionKeys();
    Letters2ApartFunctionKeys();
    DigitsApartFunctionKeys();
    NavigationApartFunctionKeys();
    PunctuationApartFunctionKeys();
    DisjointMerge(Letters1, Letters2, FunctionKeys);
    DisjointMerge(Letters1 + Letters2, Digits, FunctionKeys);
    DisjointMerge(Letters1 + Letters2 + Digits, Navigation, FunctionKeys);
    DisjointMerge(Letters1 + Letters2 + Digits + Navigation, Punctuation, FunctionKeys);
  }

  lemma NumpadDigitsFresh()
    ensures (Letters1 + Letters2 + Digits + Navigation + Punctuation + FunctionKeys).Keys !! NumpadDigits.Keys
  {
    Letters1ApartNumpadDigits();
    Letters2ApartNumpadDigits();
    DigitsApartNumpadDigits();
    NavigationApartNumpadDigits();
    PunctuationApartNumpadDigits();
    FunctionKeysApartNumpadDigits();
    DisjointMerge(Letters1, Letters2, NumpadDigits);
    DisjointMerge(Letters1 + Letters2, Digits, NumpadDigits);
    DisjointMerge(Letters1 + Letters2 + Digits, Navigation, NumpadDigits);
    DisjointMerge(Letters1 + Letters2 + Digits + Navigation, Punctuation, NumpadDigits);
    DisjointMerge(Letters1 + Letters2 + Digits + Navigation + Punctuation, FunctionKeys, NumpadDigits);
  }

  lemma NumpadOperatorsFresh()
    ensures (Letters1 + Letters2 + Digits + Navigation + Punctuation + FunctionKeys + NumpadDigits).Keys !! NumpadOperators.Keys
  {
    Letters1ApartNumpadOperators();
    Letters2ApartNumpadOperators();
    DigitsApartNumpadOperators();
    NavigationApartNumpadOperators();
    PunctuationApartNumpadOperators();
    FunctionKeysApartNumpadOperators();
    NumpadDigitsApartNumpadOperators();
    DisjointMerge(Letters1, Letters2, NumpadOperators);
    DisjointMerge(Letters1 + Letters2, Digits, NumpadOperators);
    DisjointMerge(Letters1 + Letters2 + Digits, Navigation, NumpadOperators);
    DisjointMerge(Letters1 + Letters2 + Digits + Navigation, Punctuation, NumpadOperators);
    DisjointMerge(Letters1 + Letters2 + Digits + Navigation + Punctuation, FunctionKeys, NumpadOperators);
    DisjointMerge(Letters1 + Letters2 + Digits + Navigation + Punctuation + FunctionKeys, NumpadDigits, NumpadOperators);
  }

  lemma DisjointMerge(a: map<string, AndroidKeyCode>, b: map<string, AndroidKeyCode>,
                      c: map<string, AndroidKeyCode>)
    requires a.Keys !! c.Keys && b.Keys !! c.Keys
    ensures (a + b).Keys !! c.Keys
  {
    assert (a + b).Keys == a.Keys + b.Keys;
  }

  lemma UnionSize(a: map<string, AndroidKeyCode>, b: map<string, AndroidKeyCode>)
    requires a.Keys !! b.Keys
    ensures |a + b| == |a| + |b|
  {
    assert (a + b).Keys == a.Keys + b.Keys;
  }

  /** The table has 91 entries: 26 letters, 10 digits, 26 navigation and
      punctuation keys, F1 to F12, Insert, 10 numpad digits and 6 numpad
      operators. */
  lemma {:induction false} KeyMapSize()
    ensures |KeyMap| == 91
  {
    Letters1Size();
    Letters2Size();
    DigitsSize();
    NavigationSize();
    PunctuationSize();
    FunctionKeysSize();
    NumpadDigitsSize();
    NumpadOperatorsSize();
    Letters2Fresh(); UnionSize(Letters1, Letters2);
    DigitsFresh(); UnionSize(Letters1 + Letters2, Digits);
    NavigationFresh(); UnionSize(Letters1 + Letters2 + Digits, Navigation);
    PunctuationFresh(); UnionSize(Letters1 + Letters2 + Digits + Navigation, Punctuation);
    FunctionKeysFresh(); UnionSize(Letters1 + Letters2 + Digits + Navigation + Punctuation, FunctionKeys);
    NumpadDigitsFresh(); UnionSize(Letters1 + Letters2 + Digits + Navigation + Punctuation + FunctionKeys, NumpadDigits);
    NumpadOperatorsFresh(); UnionSize(Letters1 + Letters2 + Digits + Navigation + Punctuation + FunctionKeys + NumpadDigits, NumpadOperators);
  }

  /** `BROWSER_SHORTCUTS`: with Ctrl or Meta held, these codes stay with the
      browser (new tab, close tab, new window, address bar, reload, print,
      downloads, history, bookmark, view source, find next, find). */
  const BrowserShortcuts: set<string> :=
    {"KeyT", "KeyW", "KeyN", "KeyL", "KeyR", "KeyP",
     "KeyJ", "KeyH", "KeyD", "KeyU", "KeyG", "KeyF"}

  lemma BrowserShortcutsSize()
    ensures |BrowserShortcuts| == 12
    ensures BrowserShortcuts <= KeyMap.Keys
  {
  }

  /** `getMetaState`: starts from no modifier and turns on one bit per held
      modifier. */
  method GetMetaState(e: KeyboardEvent) returns (meta: set<MetaFlag>)
    ensures ShiftOn in meta <==> e.shiftKey
    ensures CtrlOn in meta <==> e.ctrlKey
    ensures AltOn in meta <==> e.altKey
    ensures MetaOn in meta <==> e.metaKey
    ensures meta == {} <==> !(e.shiftKey || e.ctrlKey || e.altKey || e.metaKey)
  {
    meta := {};
    if e.shiftKey { meta := meta + {ShiftOn}; }
    if e.ctrlKey { meta := meta + {CtrlOn}; }
    if e.altKey { meta := meta + {AltOn}; }
    if e.metaKey { meta := meta + {MetaOn}; }
  }

  /** JavaScript's `length` of a string: its number of UTF-16 code units.
      A character outside the Basic Multilingual Plane takes two (a
      surrogate pair). */
  function Utf16Length(s: string): (n: nat)
    ensures |s| <= n <= 2 * |s|
  {
    if s == [] then 0
    else (if s[0] >= '\U{10000}' then 2 else 1) + Utf16Length(s[1..])
  }

  /** A string is one code unit long exactly when it is one character from
      the Basic Multilingual Plane. */
  lemma {:induction false} Utf16LengthOne(s: string)
    ensures Utf16Length(s) == 1 <==> |s| == 1 && s[0] < '\U{10000}'
  {
    if |s| == 1 {
      assert s[1..] == [];
    }
  }

  /** A key that is a single emoji has `length` 2. */
  lemma AstralKeyIsTwoUnits()
    ensures Utf16Length("\U{1F600}") == 2
  {
    assert "\U{1F600}"[1..] == [];
  }

  /** True when the event is a browser shortcut the handler must not touch. */
  predicate IsBrowserShortcut(e: KeyboardEvent) {
    (e.ctrlKey || e.metaKey) && e.code in BrowserShortcuts
  }

  /** `handleKeyEvent`. */
  method HandleKeyEvent(e: KeyboardEvent) returns (out: EventOutcome)
    ensures !out.propagationStopped && out.capturedPointer == NoCapture
    // browser shortcuts are left entirely alone
    ensures IsBrowserShortcut(e) ==> !out.defaultPrevented && out.sent == []
    // an unmapped code: text injection on keydown for a key that is one
    // character of the Basic Multilingual Plane, else nothing
    ensures !IsBrowserShortcut(e) && e.code !in KeyMap ==>
              if e.eventType == "keydown" && |e.key| == 1 && e.key[0] < '\U{10000}'
              then out.defaultPrevented && out.sent == [InjectText(e.key)]
              else !out.defaultPrevented && out.sent == []
    // a mapped code: one key message, default prevented
    ensures !IsBrowserShortcut(e) && e.code in KeyMap ==>
              && out.defaultPrevented
              && |out.sent| == 1 && out.sent[0].InjectKeyCode?
              && var k := out.sent[0].key;
                 && k.keyCode == KeyMap[e.code]
                 && (k.action == KeyDown <==> e.eventType == "keydown")
                 && (k.repeat == 1 <==> e.repeat) && (k.repeat == 0 <==> !e.repeat)
                 && (ShiftOn in k.metaState <==> e.shiftKey)
                 && (CtrlOn in k.metaState <==> e.ctrlKey)
                 && (AltOn in k.metaState <==> e.altKey)
                 && (MetaOn in k.metaState <==> e.metaKey)
                 && (k.metaState == {} <==> !(e.shiftKey || e.ctrlKey || e.altKey || e.metaKey))
  {
    out := EventOutcome(false, false, NoCapture, []);
    if (e.ctrlKey || e.metaKey) && e.code in BrowserShortcuts {
      return;
    }

    if e.code !in KeyMap {
      if e.eventType == "keydown" && Utf16Length(e.key) == 1 {
        Utf16LengthOne(e.key);
        out := out.(sent := [InjectText(e.key)], defaultPrevented := true);
      } else {
        Utf16LengthOne(e.key);
      }
      return;
    }
    var keyCode := KeyMap[e.code];

    out := out.(defaultPrevented := true);
    var action := if e.eventType == "keydown" then KeyDown else KeyUp;
    var metaState := GetMetaState(e);
    out := out.(sent := [InjectKeyCode(KeyCodeMessage(action, keyCode, if e.repeat then 1 else 0, metaState))]);
  }
}

=== FILE: scrcpy_client.dfy ===
/** The scrcpy session manager: pushes the server binary over ADB, starts
    the server and keeps the resulting client, and stops it. The binary's
    download, the push, the server launch and the client's close are
    oracles passed in by the caller. */
module ScrcpyClient {
  import opened Types
  import opened AdbDevice

  /** A running scrcpy client, by identity, with the configuration it was
      started with. */
  datatype Client = Client(id: nat, config: ScrcpyConfig)

  /** How launching the server ended: a client with the given identity,
      the server exited early with its output lines, or another error. */
  datatype StartOutcome =
    | Launched(id: nat)
    | ServerExited(output: seq<string>)
    | StartThrew(error: Thrown)

  // ---- `Array.prototype.join` and its inverse ----

  /** `lines.join(sep)`. */
  function Join(lines: seq<string>, sep: string): (s: string)
    ensures |lines| == 1 ==> s == lines[0]
    ensures |lines| == 0 ==> s == ""
  {
    if |lines| == 0 then ""
    else if |lines| == 1 then lines[0]
    else lines[0] + sep + Join(lines[1..], sep)
  }

  /** `s.split("\n")`: the pieces of `s` between line feeds. There is
      always at least one piece. */
  function Lines(s: string): (pieces: seq<string>)
    ensures |pieces| >= 1
    ensures forall i :: 0 <= i < |pieces| ==> '\n' !in pieces[i]
  {
    if |s| == 0 then [""]
    else
      var rest := Lines(s[1..]);
      if s[0] == '\n' then [""] + rest
      else [[s[0]] + rest[0]] + rest[1..]
  }

  /** A string without a line feed is one piece. */
  lemma {:induction false} LinesOfOneLine(l: string)
    requires '\n' !in l
    ensures Lines(l) == [l]
  {
    if |l| > 0 {
      assert '\n' !in l[1..];
      LinesOfOneLine(l[1..]);
      assert [l[0]] + l[1..] == l;
    }
  }

  /** Splitting `l + "\n" + t` yields `l` and then the pieces of `t`. */
  lemma {:induction false} LinesAfterLine(l: string, t: string)
    requires '\n' !in l
    ensures Lines(l + "\n" + t) == [l] + Lines(t)
  {
    var s := l + "\n" + t;
    if |l| == 0 {
      assert s[0] == '\n' && s[1..] == t;
    } else {
      assert s[0] == l[0] && s[1..] == l[1..] + "\n" + t;
      assert '\n' !in l[1..];
      LinesAfterLine(l[1..], t);
      assert [l[0]] + l[1..] == l;
    }
  }

  /** Joining lines that hold no line feed with "\n" and splitting again
      gives the lines back. */
  lemma {:induction false} SplitJoin(lines: seq<string>)
    requires |lines| >= 1
    requires forall i :: 0 <= i < |lines| ==> '\n' !in lines[i]
    ensures Lines(Join(lines, "\n")) == lines
  {
    if |lines| == 1 {
      LinesOfOneLine(lines[0]);
    } else {
      SplitJoin(lines[1..]);
      LinesAfterLine(lines[0], Join(lines[1..], "\n"));
      assert [lines[0]] + lines[1..] == lines;
    }
  }

  const ExitPrefix: string := "Scrcpy server failed:\n"

  /** The message of the error that replaces an early server exit. */
  function ExitMessage(output: seq<string>): (m: string)
    ensures |m| >= |ExitPrefix| && m[..|ExitPrefix|] == ExitPrefix
  {
    ExitPrefix + Join(output, "\n")
  }

  /** The server's output survives the wrapping: after the fixed prefix,
      the message splits back into the output lines. */
  lemma ExitMessageKeepsOutput(output: seq<string>)
    requires |output| >= 1
    requires forall i :: 0 <= i < |output| ==> '\n' !in output[i]
    ensures Lines(ExitMessage(output)[|ExitPrefix|..]) == output
  {
    assert ExitMessage(output)[|ExitPrefix|..] == Join(output, "\n");
    SplitJoin(output);
  }

  /** `ScrcpySessionManager`, bound to one ADB client. */
  class ScrcpySessionManager {
    const adb: AdbClient
    var client: Option<Client>
    /** Clients whose output stream is being consumed. */
    ghost var draining: set<nat>

    /** A held client's output is always being consumed, so the server
        never blocks on it. */
    ghost predicate Valid()
      reads this
    {
      client.Some? ==> client.value.id in draining
    }

    constructor(adb: AdbClient)
      ensures Valid()
      ensures this.adb == adb && client == None && draining == {}
    {
      this.adb := adb;
      client := None;
      draining := {};
    }

    /** `pushServer`: fetch the server binary (`load`), then push it
        (`push`). A failing fetch is thrown before anything is pushed. The
        session's state is untouched. */
    method PushServer(load: Result<seq<bv8>, Thrown>, push: Outcome) returns (r: Outcome)
      ensures load.Failure? ==> r == Threw(load.error)
      ensures load.Success? ==> r == push
      ensures r.Done? <==> load.Success? && push.Done?
    {
      if load.Failure? {
        return Threw(load.error);
      }
      r := push;
    }

    /** `start`, with the configuration `config` (the default when absent)
        and the launch outcome `outcome`. An early server exit is rethrown
        as an `Error` whose message carries the server's output; any other
        error is rethrown as is; in both cases the client is not assigned.
        On success the new client is held, its output is consumed and it
        is returned. */
    method Start(config: Option<ScrcpyConfig>, outcome: StartOutcome) returns (r: Result<Client, Thrown>)
      requires Valid()
      modifies this
      ensures Valid()
      ensures outcome.ServerExited? ==> r == Failure(ErrorObject(ExitMessage(outcome.output)))
      ensures outcome.StartThrew? ==> r == Failure(outcome.error)
      ensures r.Failure? ==> client == old(client) && draining == old(draining)
      ensures outcome.Launched? ==>
                && r == Success(Client(outcome.id, config.GetOr(DefaultScrcpyConfig)))
                && client == Some(r.value)
                && draining == old(draining) + {outcome.id}
    {
      var effective := config.GetOr(DefaultScrcpyConfig);
      match outcome {
        case ServerExited(output) =>
          return Failure(ErrorObject(ExitMessage(output)));
        case StartThrew(e) =>
          return Failure(e);
        case Launched(id) =>
          client := Some(Client(id, effective));
          draining := draining + {id};
          r := Success(client.value);
      }
    }

    /** `stop`: closes the client, ignoring `closed` if it is an error, and
        always forgets it; with no client there is nothing to close. */
    method Stop(closed: Outcome)
      requires Valid()
      modifies this
      ensures Valid()
      ensures client == None && draining == old(draining)
    {
      client := None;
    }
  }
}

=== FILE: scrcpy_session.dfy ===
/** The session hook: starts a scrcpy session over the connection's ADB
    client and stops it. It reports states and errors through the
    connection hook (`onStateChange` is its `setConnectionState`, `onError`
    its `setError`). `startSession` is guarded against a second start while
    one is pending; it is split after the session is created so that a
    second call, and a stop, can land while the first is in flight. */
module ScrcpySessionHook {
  import opened Types
  import opened AdbDevice
  import opened ScrcpyClient
  import opened DeviceConnectionHook

  /** The states a start emits after `PushingServer`, by how the push and
      the launch went. */
  function StartTail(pushed: bool, launched: bool): (tail: seq<ConnectionState>)
    ensures |tail| >= 1 && tail[|tail| - 1] in {Streaming, Error}
    ensures tail[|tail| - 1] == Streaming <==> pushed && launched
  {
    if !pushed then [Error]
    else if !launched then [StartingStream, Error]
    else [StartingStream, Streaming]
  }

  /** Every start emits one of three sequences: it never goes back to an
      earlier state, never emits `Streaming` and `Error` both, and
      `StartingStream` only after a successful push. */
  lemma StartTraces(pushed: bool, launched: bool)
    ensures var t := [PushingServer] + StartTail(pushed, launched);
            || t == [PushingServer, StartingStream, Streaming]
            || t == [PushingServer, Error]
            || t == [PushingServer, StartingStream, Error]
    ensures StartingStream in StartTail(pushed, launched) <==> pushed
    ensures !(Streaming in StartTail(pushed, launched) && Error in StartTail(pushed, launched))
  {
  }

  class ScrcpySession {
    var client: Option<Client>
    var session: ScrcpySessionManager?
    var starting: bool

    ghost predicate Valid()
      reads this, session
    {
      session != null ==> session.Valid()
    }

    constructor()
      ensures Valid() && client == None && session == null && !starting
    {
      client := None;
      session := null;
      starting := false;
    }

    /** `startSession` up to its first await. Without ADB, or while a start
        is pending, it does nothing (`pending` is null). Otherwise it marks
        the start as pending, stores a new session over the connection's
        client before anything can fail, and emits `PushingServer`. */
    method BeginStartSession(conn: DeviceConnection) returns (pending: ScrcpySessionManager?)
      requires Valid() && conn.Valid()
      modifies this, conn
      ensures Valid() && conn.Valid()
      ensures conn.error == old(conn.error) && conn.adb == old(conn.adb)
      ensures client == old(client)
      ensures old(conn.adb).None? || old(starting) ==>
                && pending == null && conn.trace == old(conn.trace)
                && session == old(session) && starting == old(starting)
      ensures old(conn.adb).Some? && !old(starting) ==>
                && pending != null && fresh(pending) && session == pending
                && pending.adb == old(conn.adb).value && pending.client == None
                && starting
                && conn.trace == old(conn.trace) + [PushingServer]
    {
      if conn.adb.None? || starting {
        return null;
      }
      starting := true;
      var s := new ScrcpySessionManager(conn.adb.value);
      session := s;
      conn.SetConnectionState(PushingServer);
      pending := s;
    }

    /** The rest of `startSession` for the session `s` it created: push the
        server (`load`, `push`), emit `StartingStream`, launch it with
        `config` (`outcome`), publish the client and emit `Streaming`. A
        failure reports its message (or "Failed to start screen mirror")
        and then emits `Error`. The pending mark is cleared on every path.
        Nothing checks that `s` is still the hook's session. */
    method CompleteStartSession(s: ScrcpySessionManager, config: Option<ScrcpyConfig>,
                                load: Result<seq<bv8>, Thrown>, push: Outcome, outcome: StartOutcome,
                                conn: DeviceConnection)
      requires Valid() && s.Valid() && conn.Valid()
      modifies this, s, conn
      ensures Valid() && s.Valid() && conn.Valid()
      ensures !starting && session == old(session) && conn.adb == old(conn.adb)
      ensures var pushed := load.Success? && push.Done?;
              var launched := outcome.Launched?;
              conn.trace == old(conn.trace) + StartTail(pushed, launched)
      ensures load.Success? && push.Done? && outcome.Launched? ==>
                client.Some? && client == s.client && conn.error == old(conn.error)
      ensures !(load.Success? && push.Done? && outcome.Launched?) ==>
                client == old(client) && s.client == old(s.client)
      ensures load.Failure? ==> conn.error == Some(MessageOf(load.error, "Failed to start screen mirror"))
      ensures load.Success? && push.Threw? ==>
                conn.error == Some(MessageOf(push.error, "Failed to start screen mirror"))
      ensures load.Success? && push.Done? && outcome.ServerExited? ==>
                conn.error == Some(ExitMessage(outcome.output))
      ensures load.Success? && push.Done? && outcome.StartThrew? ==>
                conn.error == Some(MessageOf(outcome.error, "Failed to start screen mirror"))
    {
      var pushed := s.PushServer(load, push);
      if pushed.Threw? {
        conn.SetError(Some(MessageOf(pushed.error, "Failed to start screen mirror")));
        conn.SetConnectionState(Error);
        starting := false;
        return;
      }
      conn.SetConnectionState(StartingStream);
      var started := s.Start(config, outcome);
      if started.Failure? {
        conn.SetError(Some(MessageOf(started.error, "Failed to start screen mirror")));
        conn.SetConnectionState(Error);
        starting := false;
        return;
      }
      client := Some(started.value);
      conn.SetConnectionState(Streaming);
      starting := false;
    }

    /** `stopSession`: stops the stored session, if any (ignoring `closed`
        if it is an error), and clears both the session and the client. */
    method StopSession(closed: Outcome)
      requires Valid()
      modifies this, session
      ensures Valid()
      ensures session == null && client == None && starting == old(starting)
      ensures old(session) != null ==> old(session).client == None && old(session).Valid()
    {
      if session != null {
        session.Stop(closed);
      }
      session := null;
      client := None;
    }
  }

  /** A stop that lands while a start is in flight does not stop it: the
      start goes on, publishes a client and emits `Streaming`, while the
      hook no longer holds the session that owns that client. */
  method StopDuringSessionStart(conn: DeviceConnection, id: nat) returns (h: ScrcpySession)
    requires conn.Valid() && conn.adb.Some?
    modifies conn
    ensures h.Valid() && conn.Valid()
    ensures h.session == null && h.client.Some?
    ensures conn.state == Streaming
  {
    h := new ScrcpySession();
    var s := h.BeginStartSession(conn);
    h.StopSession(Done);
    h.CompleteStartSession(s, None, Success([]), Done, Launched(id), conn);
  }
}

=== FILE: scroll_handler.dfy ===
/** Wheel input: every wheel event on the video element becomes one scroll
    message at the mapped pointer position, carrying only the direction of
    the vertical movement. */
module ScrollHandler {
  import opened Geometry
  import opened ControlMessages

  /** The fields of a DOM `WheelEvent` the handler reads. */
  datatype WheelEvent = WheelEvent(clientX: real, clientY: real, deltaY: real)

  /** `Math.sign` on a real (its IEEE `-0` result is not modelled). */
  function Sign(v: real): int {
    if v > 0.0 then 1 else if v < 0.0 then -1 else 0
  }

  /** `handleWheelEvent`, for an element whose bounding box is `target` and a
      video of `videoWidth` x `videoHeight`. */
  method HandleWheelEvent(e: WheelEvent, target: Rect, videoWidth: nat, videoHeight: nat)
    returns (out: EventOutcome)
    requires Positive(target)
    ensures out.defaultPrevented
    ensures !out.propagationStopped && out.capturedPointer == NoCapture
    ensures |out.sent| == 1 && out.sent[0].InjectScroll?
    ensures var s := out.sent[0].scroll;
      var p := MapClientToVideo(e.clientX, e.clientY,
                                RenderedVideoRect(target, videoWidth, videoHeight),
                                videoWidth, videoHeight);
      && s.pointerX == p.0 && s.pointerY == p.1
      && 0.0 <= s.pointerX <= videoWidth as real
      && 0.0 <= s.pointerY <= videoHeight as real
      && s.videoWidth == videoWidth && s.videoHeight == videoHeight
      && s.scrollX == 0 && s.buttons == 0
      && s.scrollY in {-1, 0, 1}
      && (e.deltaY > 0.0 <==> s.scrollY == -1)
      && (e.deltaY < 0.0 <==> s.scrollY == 1)
      && (e.deltaY == 0.0 <==> s.scrollY == 0)
  {
    var rendered := RenderedVideoRect(target, videoWidth, videoHeight);
    var percentageX := Max(0.0, Min(1.0, (e.clientX - rendered.x) / rendered.width));
    var percentageY := Max(0.0, Min(1.0, (e.clientY - rendered.y) / rendered.height));

    var scroll := ScrollMessage(
      percentageX * videoWidth as real,
      percentageY * videoHeight as real,
      videoWidth,
      videoHeight,
      0,
      -Sign(e.deltaY),
      0);
    out := EventOutcome(true, false, NoCapture, [InjectScroll(scroll)]);
  }
}

=== FILE: touch_handler.dfy ===
/** Pointer input: one pointer event on the video element becomes at most one
    touch message, positioned in device pixels through the letterbox
    geometry. */
module TouchHandler {
  import opened Geometry
  import opened ControlMessages

  /** The fields of a DOM `PointerEvent` the handler reads. */
  datatype PointerEvent = PointerEvent(
    eventType: string,
    pointerId: int,
    clientX: real,
    clientY: real,
    button: int,
    buttons: nat)

  /** `BUTTON_MAP[button] ?? Primary`: DOM button numbers 0..4 select the
      primary, middle, secondary, back and forward buttons. */
  function ButtonFor(button: int): MotionButton {
    if button == 0 then Primary
    else if button == 1 then Tertiary
    else if button == 2 then Secondary
    else if button == 3 then Back
    else if button == 4 then Forward
    else Primary
  }

  /** Every button number outside 0..4 falls back to the primary button, and
      the five listed numbers select five different buttons. */
  lemma ButtonMapShape(b: int, c: int)
    ensures (b < 0 || b > 4) ==> ButtonFor(b) == Primary
    ensures 0 <= b <= 4 && 0 <= c <= 4 && b != c ==> ButtonFor(b) != ButtonFor(c)
  {
  }

  /** `handlePointerEvent`, for an element whose bounding box is `target` and
      a video whose current size is `videoWidth` x `videoHeight`. */
  method HandlePointerEvent(e: PointerEvent, target: Rect, videoWidth: nat, videoHeight: nat)
    returns (out: EventOutcome)
    requires Positive(target)
    // the event is consumed and the pointer captured, whatever its type
    ensures out.defaultPrevented && out.propagationStopped
    ensures out.capturedPointer == Captured(e.pointerId)
    // only the four pointer event types send anything, and then exactly one touch
    ensures out.sent == [] <==>
              e.eventType !in {"pointerdown", "pointermove", "pointerup", "pointercancel"}
    ensures out.sent != [] ==> |out.sent| == 1 && out.sent[0].InjectTouch?
    ensures out.sent != [] ==>
              var t := out.sent[0].touch;
              var p := MapClientToVideo(e.clientX, e.clientY,
                                        RenderedVideoRect(target, videoWidth, videoHeight),
                                        videoWidth, videoHeight);
              && (e.eventType == "pointerdown" ==> t.action == Down)
              && (e.eventType == "pointerup" ==> t.action == Up)
              && (e.eventType == "pointercancel" ==> t.action == Cancel)
              && (e.eventType == "pointermove" ==> t.action == (if e.buttons == 0 then HoverMove else Move))
              && t.pointerX == p.0 && t.pointerY == p.1
              && 0.0 <= t.pointerX <= videoWidth as real
              && 0.0 <= t.pointerY <= videoHeight as real
              && t.pointerId == e.pointerId
              && t.buttons == e.buttons
              && t.videoWidth == videoWidth && t.videoHeight == videoHeight
              && (t.pressure == 0.0 <==> e.buttons == 0)
              && (t.pressure == 1.0 <==> e.buttons != 0)
              && t.actionButton == ButtonFor(e.button)
  {
    out := EventOutcome(true, true, Captured(e.pointerId), []);

    var action: MotionAction;
    if e.eventType == "pointerdown" {
      action := Down;
    } else if e.eventType == "pointermove" {
      action := if e.buttons == 0 then HoverMove else Move;
    } else if e.eventType == "pointerup" {
      action := Up;
    } else if e.eventType == "pointercancel" {
      action := Cancel;
    } else {
      return;
    }

    var rendered := RenderedVideoRect(target, videoWidth, videoHeight);
    var percentageX := Max(0.0, Min(1.0, (e.clientX - rendered.x) / rendered.width));
    var percentageY := Max(0.0, Min(1.0, (e.clientY - rendered.y) / rendered.height));

    var touch := TouchMessage(
      action,
      e.pointerId,
      percentageX * videoWidth as real,
      percentageY * videoHeight as real,
      videoWidth,
      videoHeight,
      if e.buttons == 0 then 0.0 else 1.0,
      ButtonFor(e.button),
      e.buttons);
    out := out.(sent := [InjectTouch(touch)]);
  }
}

=== FILE: types.dfy ===
/** Shared value types: the connection states, device and session records,
    and the shape of a JavaScript exception as the hooks see it. */
module Types {

  datatype Option<+T> = None | Some(value: T) {
    function GetOr(default: T): T {
      match this
      case Some(v) => v
      case None => default
    }
  }

  datatype Result<+T, +E> = Success(value: T) | Failure(error: E)

  /** A thrown JavaScript value: an `Error` (which has a `message`) or
      anything else that was thrown. */
  datatype Thrown = ErrorObject(message: string) | NonErrorValue

  /** How an awaited call that yields nothing ended: it returned, or it
      threw `error`. */
  datatype Outcome = Done | Threw(error: Thrown)

  /** `e instanceof Error ? e.message : fallback`, the idiom every hook uses
      to turn a caught value into the text it shows. */
  function MessageOf(e: Thrown, fallback: string): (m: string)
    ensures e.ErrorObject? ==> m == e.message
    ensures e.NonErrorValue? ==> m == fallback
  {
    match e
    case ErrorObject(msg) => msg
    case NonErrorValue => fallback
  }

  /** The eight connection states of the application. */
  datatype ConnectionState =
    | Disconnected
    | Connecting
    | Authenticating
    | Connected
    | PushingServer
    | StartingStream
    | Streaming
    | Error

  /** The string tag each state carries at run time. */
  function Tag(s: ConnectionState): string {
    match s
    case Disconnected => "disconnected"
    case Connecting => "connecting"
    case Authenticating => "authenticating"
    case Connected => "connected"
    case PushingServer => "pushing_server"
    case StartingStream => "starting_stream"
    case Streaming => "streaming"
    case Error => "error"
  }

  const AllStates: seq<ConnectionState> :=
    [Disconnected, Connecting, Authenticating, Connected,
     PushingServer, StartingStream, Streaming, Error]

  /** There are exactly eight states: the list above names every state once. */
  lemma ExactlyEightStates()
    ensures |AllStates| == 8
    ensures forall s: ConnectionState :: s in AllStates
    ensures forall i, j :: 0 <= i < j < |AllStates| ==> AllStates[i] != AllStates[j]
  {
    forall s: ConnectionState ensures s in AllStates {
      match s
      case Disconnected => assert AllStates[0] == s;
      case Connecting => assert AllStates[1] == s;
      case Authenticating => assert AllStates[2] == s;
      case Connected => assert AllStates[3] == s;
      case PushingServer => assert AllStates[4] == s;
      case StartingStream => assert AllStates[5] == s;
      case Streaming => assert AllStates[6] == s;
      case Error => assert AllStates[7] == s;
    }
  }

  /** Distinct states carry distinct tags. */
  lemma TagsDistinct(s: ConnectionState, t: ConnectionState)
    ensures Tag(s) == Tag(t) <==> s == t
  {
  }

  /** Descriptive device record; `screenSize` is optional. */
  datatype DeviceInfo = DeviceInfo(
    model: string,
    androidVersion: string,
    serial: string,
    screenSize: Option<string>)

  /** The record shown when the device-info queries fail. */
  const UnknownDeviceInfo: DeviceInfo :=
    DeviceInfo("Unknown", "Unknown", "Unknown", None)

  /** Mirroring configuration: the three numeric fields of the session. */
  datatype ScrcpyConfig = ScrcpyConfig(maxSize: int, bitRate: int, maxFps: int)

  const DefaultScrcpyConfig: ScrcpyConfig :=
    ScrcpyConfig(1080, 4_000_000, 30)
}

=== FILE: video_decoder.dfy ===
/** Video decoder selection: a three-rung ladder from hardware decoding with
    a WebGL renderer, to hardware decoding with a bitmap renderer, to the
    TinyH264 software decoder, which always works. What the browser
    supports and which constructors throw arrive as flags. */
module VideoDecoderSelection {

  /** The renderers a decoder can draw with; each owns one canvas. */
  datatype Renderer = WebGLRenderer | BitmapRenderer | TinyH264Renderer

  datatype VideoCodec = H264

  /** The decoder returned: a WebCodecs decoder for a codec drawing with a
      renderer, or the software decoder (which draws with its own). */
  datatype VideoDecoder =
    | WebCodecsDecoder(codec: VideoCodec, renderer: Renderer)
    | TinyH264Decoder

  /** `DecoderResult`: the decoder, the canvas it draws on (named by the
      renderer that owns it) and whether decoding is hardware
      accelerated. */
  datatype DecoderResult = DecoderResult(decoder: VideoDecoder, canvas: Renderer, isHardwareAccelerated: bool)

  /** What the browser offers: whether WebCodecs video decoding and the
      WebGL renderer are supported, and whether building the WebGL rung or
      the bitmap rung throws. */
  datatype Capabilities = Capabilities(
    webCodecsSupported: bool,
    webGLSupported: bool,
    webGLRungThrows: bool,
    bitmapRungThrows: bool)

  /** `createDecoder`. */
  function CreateDecoder(caps: Capabilities): (r: DecoderResult)
    // the WebGL rung exactly when both are supported and it builds
    ensures r.canvas == WebGLRenderer <==>
              caps.webCodecsSupported && caps.webGLSupported && !caps.webGLRungThrows
    // the bitmap rung exactly when WebCodecs is supported, the WebGL rung was
    // skipped or threw, and the bitmap rung builds
    ensures r.canvas == BitmapRenderer <==>
              && caps.webCodecsSupported
              && (!caps.webGLSupported || caps.webGLRungThrows)
              && !caps.bitmapRungThrows
    // otherwise the software decoder; some decoder is always returned
    ensures r.canvas == TinyH264Renderer <==> r.decoder == TinyH264Decoder
    // hardware acceleration exactly for the WebCodecs rungs, both H.264,
    // each drawing on its own renderer's canvas
    ensures r.isHardwareAccelerated <==> r.decoder.WebCodecsDecoder?
    ensures r.decoder.WebCodecsDecoder? ==> r.decoder.codec == H264 && r.decoder.renderer == r.canvas
  {
    if caps.webCodecsSupported && caps.webGLSupported && !caps.webGLRungThrows then
      DecoderResult(WebCodecsDecoder(H264, WebGLRenderer), WebGLRenderer, true)
    else if caps.webCodecsSupported && !caps.bitmapRungThrows then
      DecoderResult(WebCodecsDecoder(H264, BitmapRenderer), BitmapRenderer, true)
    else
      DecoderResult(TinyH264Decoder, TinyH264Renderer, false)
  }

  /** Without WebCodecs the software rung is chosen whatever WebGL reports. */
  lemma NoWebCodecsMeansSoftware(caps: Capabilities)
    requires !caps.webCodecsSupported
    ensures CreateDecoder(caps) == DecoderResult(TinyH264Decoder, TinyH264Renderer, false)
    ensures forall gl: bool, glThrows: bool ::
              CreateDecoder(caps.(webGLSupported := gl, webGLRungThrows := glThrows)) == CreateDecoder(caps)
  {
  }

  /** The rungs are tried in order: hardware decoding is chosen exactly
      when WebCodecs is supported and at least one hardware rung builds. */
  lemma HardwareWhenARungBuilds(caps: Capabilities)
    ensures CreateDecoder(caps).isHardwareAccelerated <==>
              && caps.webCodecsSupported
              && ((caps.webGLSupported && !caps.webGLRungThrows) || !caps.bitmapRungThrows)
  {
  }
}

=== FILE: video_hook.dfy ===
/** The video hook: owns the current decoder, the canvas it draws on (a
    child of the viewer's container), the abort controller of the stream
    pipe and the video size. `startDecoding` has no in-progress guard, so
    it is split at its await (the video stream's metadata) and the two
    halves can interleave with each other and with `stopDecoding`. */
module VideoHook {
  import opened Types
  import opened VideoDecoderSelection

  /** A created decoder and its canvas share one identity. */
  datatype DecoderInstance = DecoderInstance(id: nat, result: DecoderResult)

  /** How a stream pipe ended. */
  datatype PipeEnd = EndedNormally | EndedWithAbortError | EndedWithOtherError

  /** `s` without `x`. */
  function Remove(s: seq<nat>, x: nat): (r: seq<nat>)
    ensures forall y :: y in r <==> y in s && y != x
  {
    if s == [] then []
    else if s[0] == x then Remove(s[1..], x)
    else [s[0]] + Remove(s[1..], x)
  }

  class VideoDecoderHook {
    var decoder: Option<DecoderInstance>
    /** The canvas reference, by the identity of the decoder it belongs to. */
    var canvas: Option<nat>
    /** The abort controller of the current pipe, by identity. */
    var abort: Option<nat>
    var videoWidth: nat
    var videoHeight: nat
    var isHardwareAccelerated: bool
    /** The canvases attached to the container, in order. */
    var containerChildren: seq<nat>
    /** Decoders whose size listener is registered. */
    var sizeListeners: set<nat>
    /** The identity the next created object receives. */
    var nextId: nat
    /** Decoders not yet disposed and controllers not yet aborted. */
    ghost var liveDecoders: set<nat>
    ghost var openControllers: set<nat>

    /** At most one decoder is alive, and it is the one held; the container
        shows exactly the held canvas, which belongs to the held decoder. */
    ghost predicate Valid()
      reads this
    {
      && liveDecoders == (if decoder.Some? then {decoder.value.id} else {})
      && containerChildren == (if canvas.Some? then [canvas.value] else [])
      && (canvas.Some? <==> decoder.Some?)
      && (canvas.Some? ==> canvas.value == decoder.value.id)
      && (decoder.Some? ==> decoder.value.id < nextId)
      && (abort.Some? ==> abort.value < nextId)
    }

    constructor()
      ensures Valid()
      ensures decoder == None && canvas == None && abort == None
      ensures videoWidth == 0 && videoHeight == 0 && !isHardwareAccelerated
      ensures openControllers == {} && sizeListeners == {}
    {
      decoder := None;
      canvas := None;
      abort := None;
      videoWidth := 0;
      videoHeight := 0;
      isHardwareAccelerated := false;
      containerChildren := [];
      sizeListeners := {};
      nextId := 0;
      liveDecoders := {};
      openControllers := {};
    }

    /** `stopDecoding`: aborts the pipe, disposes the decoder, takes the
        canvas out of the container and resets the size. Safe before any
        start and when repeated. */
    method StopDecoding()
      requires Valid()
      modifies this
      ensures Valid()
      ensures decoder == None && canvas == None && abort == None
      ensures videoWidth == 0 && videoHeight == 0
      ensures liveDecoders == {} && containerChildren == []
      ensures openControllers == old(openControllers) - (if old(abort).Some? then {old(abort).value} else {})
      ensures isHardwareAccelerated == old(isHardwareAccelerated) && nextId == old(nextId)
      ensures sizeListeners == old(sizeListeners)
    {
      if abort.Some? {
        openControllers := openControllers - {abort.value};
      }
      abort := None;
      if decoder.Some? {
        liveDecoders := liveDecoders - {decoder.value.id};
      }
      decoder := None;
      if canvas.Some? {
        var c := canvas.value;
        assert [c][1..] == [];
        assert Remove([c], c) == Remove([], c) == [];
        containerChildren := Remove(containerChildren, c);
      }
      canvas := None;
      videoWidth := 0;
      videoHeight := 0;
    }

    /** `startDecoding` up to its await. It stops first; without a video
        stream it ends there. Otherwise it creates a decoder from the
        ladder, holds it and its canvas, shows the canvas, registers the
        size listener and returns the new decoder's identity (`started`),
        which the second half continues with. */
    method BeginStartDecoding(hasVideoStream: bool, caps: Capabilities) returns (started: Option<nat>)
      requires Valid()
      modifies this
      ensures Valid()
      ensures abort == None
      ensures openControllers == old(openControllers) - (if old(abort).Some? then {old(abort).value} else {})
      ensures !hasVideoStream ==>
                && started == None && decoder == None && canvas == None
                && videoWidth == 0 && videoHeight == 0
                && isHardwareAccelerated == old(isHardwareAccelerated)
                && sizeListeners == old(sizeListeners)
      ensures hasVideoStream ==>
                && started == Some(old(nextId))
                && decoder == Some(DecoderInstance(old(nextId), CreateDecoder(caps)))
                && canvas == Some(old(nextId)) && containerChildren == [old(nextId)]
                && isHardwareAccelerated == CreateDecoder(caps).isHardwareAccelerated
                && videoWidth == 0 && videoHeight == 0
                && sizeListeners == old(sizeListeners) + {old(nextId)}
                && liveDecoders == {old(nextId)}
    {
      StopDecoding();
      if !hasVideoStream {
        return None;
      }
      var id := nextId;
      nextId := nextId + 1;
      var result := CreateDecoder(caps);
      decoder := Some(DecoderInstance(id, result));
      liveDecoders := liveDecoders + {id};
      canvas := Some(id);
      isHardwareAccelerated := result.isHardwareAccelerated;
      containerChildren := containerChildren + [id];
      sizeListeners := sizeListeners + {id};
      started := Some(id);
    }

    /** The rest of `startDecoding`, once the stream of the start that
        created decoder `started` has arrived: the size becomes the
        stream's, and a new abort controller is held for its pipe. Nothing
        checks that this start is still the current one. */
    method ResumeStartDecoding(started: nat, streamWidth: nat, streamHeight: nat)
      requires Valid()
      modifies this
      ensures Valid()
      ensures videoWidth == streamWidth && videoHeight == streamHeight
      ensures abort == Some(old(nextId)) && nextId == old(nextId) + 1
      ensures openControllers == old(openControllers) + {old(nextId)}
      ensures decoder == old(decoder) && canvas == old(canvas)
      ensures containerChildren == old(containerChildren) && sizeListeners == old(sizeListeners)
    {
      videoWidth := streamWidth;
      videoHeight := streamHeight;
      var controller := nextId;
      nextId := nextId + 1;
      abort := Some(controller);
      openControllers := openControllers + {controller};
    }

    /** A size-change event of decoder `from`: it overwrites the size while
        that decoder's listener is registered. */
    method SizeChanged(from: nat, width: nat, height: nat)
      requires Valid()
      modifies this
      ensures Valid()
      ensures from in sizeListeners ==> videoWidth == width && videoHeight == height
      ensures from !in sizeListeners ==> videoWidth == old(videoWidth) && videoHeight == old(videoHeight)
      ensures decoder == old(decoder) && abort == old(abort) && sizeListeners == old(sizeListeners)
    {
      if from in sizeListeners {
        videoWidth := width;
        videoHeight := height;
      }
    }

    /** The end of the pipe into decoder `from`: an abort is not reported,
        any other failure is logged (`logged`), and in every case that
        decoder's size listener is removed. */
    method PipeEnded(from: nat, end: PipeEnd) returns (logged: bool)
      requires Valid()
      modifies this
      ensures Valid()
      ensures logged <==> end == EndedWithOtherError
      ensures sizeListeners == old(sizeListeners) - {from}
      ensures decoder == old(decoder) && abort == old(abort)
      ensures videoWidth == old(videoWidth) && videoHeight == old(videoHeight)
    {
      logged := end == EndedWithOtherError;
      sizeListeners := sizeListeners - {from};
    }
  }

  /** A stop that lands while a start awaits its stream does not stop the
      video: when the start resumes, the size is set again and a pipe with
      a live abort controller feeds a decoder that has been disposed, while
      the hook holds no decoder. */
  method StopDuringStart(caps: Capabilities, width: nat, height: nat) returns (h: VideoDecoderHook)
    requires width > 0 && height > 0
    ensures h.Valid()
    ensures h.decoder == None && h.canvas == None
    ensures h.videoWidth == width && h.videoHeight == height
    ensures h.abort.Some? && h.abort.value in h.openControllers
  {
    h := new VideoDecoderHook();
    var started := h.BeginStartDecoding(true, caps);
    h.StopDecoding();
    h.ResumeStartDecoding(started.value, width, height);
  }

  /** Two overlapping starts never leave two decoders alive, but the
      first start's abort controller is replaced without being aborted:
      two abort controllers stay unaborted. */
  method OverlappingStarts(caps: Capabilities, width: nat, height: nat) returns (h: VideoDecoderHook)
    ensures h.Valid()
    ensures |h.liveDecoders| == 1
    ensures |h.openControllers| == 2
  {
    h := new VideoDecoderHook();
    var first := h.BeginStartDecoding(true, caps);
    var second := h.BeginStartDecoding(true, caps);
    h.ResumeStartDecoding(first.value, width, height);
    h.ResumeStartDecoding(second.value, width, height);
  }
}
